=== FILE: README.md ===
# Check-in scoring, question choice, advice and session store

A Dafny model of the server core of a student well-being check-in application. A
student logs in with an email and gets an opaque session token. The student answers
Likert-scale questions about mood and anxiety. The server scores the answers into two
domain scores and a severity tier (`low`, `moderate`, `high`), stores the record in the
student's history, returns canned recommendations, and on the next visit adds
follow-up questions for a domain whose last score reached 3.0.

Modules follow the program:

- `Api` holds the shared request and response shapes, including `Severity` as an
  enumeration and `Summary` as a record.
- `JsText` restates the JavaScript built-ins the server relies on: the `\s` character
  class, `toLowerCase`, `parseInt` without a radix, and `String(n)`.
- `Scoring`, `Questions`, `Advice` and `Db` model the four parts of `server/db.ts`.
- `AuthRoutes` and `AssessmentRoutes` model the Express handlers. Each is a total
  function from the store and a request datatype to a reply, plus the new store for the
  handlers that write.

Domain scores are integers in tenths (`35` is 3.5). `round1(avg(vs))` is exactly
`(20 * sum + n) / (2 * n)` for `n > 0`, because `Math.round(x)` is the floor of `x + 1/2`.
This keeps the 3.0, 3.5 and 4.0 thresholds exact.

The store is a value `Store(users, order, sessions)`. `order` lists user ids in
insertion order, which is the order in which `Object.values` returns them. So "find the
first user whose email matches" is a total, deterministic function even on a store that
breaks the invariant. `Db.Valid` is the invariant. It says users sit under their own id,
every id is listed in `order`, no two emails are equal up to letter case, and every
session names a stored user. The lemmas show that every writing operation preserves it.
UUIDs and timestamps are parameters. Handlers are total: a colliding "fresh" id is
overwritten, as the JavaScript would do, and freshness appears only as a lemma
precondition.

`parseInt` follows the ECMAScript algorithm, not the looser "malformed becomes 0" reading.
Leading white space is skipped, one sign is allowed, and `0x`/`0X` switches to base 16.
The longest digit prefix is then read. So `"3abc"` counts as 3 and `"0x1A"` as 26. A
string with no digit prefix after its white space and sign is `NaN`, which `|| 0` turns
into 0; so do `"abc5"`, `"0x"`, `"-"` and, of course, `"0"`.

## Model

| member | source | states |
|---|---|---|
| JsText.TrimStart | server/db.ts:130 | the trimmed string is a suffix, every dropped character is JavaScript white space, and the result does not start with white space |
| JsText.ParseInt | server/db.ts:130 | `parseInt` reads a number exactly when, after the white space and one optional sign, the text starts with a decimal digit and, if that digit opens a `0x` prefix, a hex digit follows; a number read implies a decimal digit somewhere in the string |
| JsText.ParseIntDigitPrefix | server/db.ts:130 | after any white space, an optional `+` or `-`, a run of decimal digits and any text that does not continue the run (and no `0x` prefix), `parseInt` returns the digits' value with that sign: `"+5"` is 5, `"007"` is 7, `" -3kg"` is -3 |
| JsText.ParseIntIgnoresPadding | server/db.ts:130 | `parseInt` gives the same result with any leading white space |
| JsText.ParseIntRoundTrip | server/db.ts:130 | `parseInt(pad + String(n))` is `n` for every integer `n`, with any white-space padding |
| JsText.ParseSignedIntString | server/db.ts:130 | the sign and digits of `String(n)` read back as `n` |
| JsText.ParseUnsignedDecimal | server/db.ts:130 | a decimal digit string never takes the hex branch and reads back as its value |
| JsText.DecimalStringValue | server/db.ts:130 | reading the digits of `String(n)` most-significant-first gives `n` |
| JsText.ParseIntPrefixExample | server/db.ts:130 | `parseInt("12abc")` is 12: the digit prefix wins |
| JsText.ParseIntHexExample | server/db.ts:130 | `parseInt("0x1A")` is 26: the hex prefix applies |
| JsText.ParseIntNaNExample | server/db.ts:130 | `parseInt("abc")` is `NaN` |
| Scoring.StringAnswerCountsAsNumber | server/db.ts:130 | an answer sent as the decimal string of `n`, even padded, counts the same as the number `n` |
| Scoring.Coerce | server/db.ts:130 | a number answer counts as itself; a string answer counts as the number `parseInt` reads from it, and as 0 whenever `parseInt` gives `NaN` (in particular whenever it holds no decimal digit) |
| Scoring.NaNStringCountsAsZero | server/db.ts:130 | a string answer with no digit right after its white space and sign, or with `0x` and no hex digit, counts as 0 |
| Scoring.DigitlessStringCountsAsZero | server/db.ts:130 | every string answer without a decimal digit counts as 0 instead of failing |
| Scoring.MeanTenths | server/db.ts:140-141 | the result `t` satisfies `t - 1/2 <= 10 * mean < t + 1/2`: the mean rounded half up to one decimal |
| Scoring.RoundedMeanUnique | server/db.ts:141 | at most one value meets the rounding condition, so the contract of `MeanTenths` determines it |
| Scoring.MeanTenthsExamples | server/db.ts:140-141 | [3, 4] scores exactly 3.5 and [3, 3, 4] scores 3.3 |
| Scoring.MeanTenthsBounds | server/db.ts:134-135 | if every value lies in [1, 5] then the rounded mean lies in [1.0, 5.0] |
| Scoring.SeverityOf | server/db.ts:136 | `high` iff some score is at least 4.0; `moderate` iff neither reaches 4.0 and some reaches 3.0; `low` iff both are below 3.0; the tier is the worse of the two per-score tiers |
| Scoring.SeverityMonotone | server/db.ts:136 | raising either score never lowers the severity |
| Scoring.SeverityBoundaries | server/db.ts:136 | 4.0 is `high`, 3.0 is `moderate`, 2.9 is `low` |
| Scoring.Summarize | server/db.ts:124-138 | each domain score is 0 when no answer falls in the domain and otherwise the rounded mean of that domain's coerced values; the severity is the one the scores determine |
| Scoring.ValuesComeFromDomain | server/db.ts:126-133 | every value counted in a domain comes from an answer whose id the table maps to that domain |
| Scoring.MappedAnswerCounted | server/db.ts:126-132 | an answer whose id the table maps to a domain is counted in that domain, with its coerced value, at its place among the answers, wherever it stands |
| Scoring.UnmappedAnswerIgnored | server/db.ts:126-133 | inserting an answer whose id is not in the table, anywhere, leaves the summary unchanged |
| Scoring.NoMappedAnswersScoreZero | server/db.ts:134-136 | answers without a table id give mood 0, anxiety 0 and `low` |
| Scoring.SummaryIgnoresOrder | server/db.ts:129-135 | swapping two batches of answers does not change the summary |
| Scoring.SummaryBounds | server/db.ts:134-135 | if every counted answer has a value in [1, 5], each score is 0 or lies in [1.0, 5.0] |
| Scoring.SummarizeExample | server/db.ts:124-138 | mood answers 3 and 4 give mood 3.5, anxiety 0 and `moderate` |
| Questions.QuestionsFor | server/db.ts:109-122 | without a prior summary the ids are exactly m1, m2, a1, a2; the base four always come first; the length is 4, 6 or 8; every question is a 1-to-5 scale labelled Never..Always |
| Questions.QuestionIdsLayout | server/db.ts:112-121 | with a prior summary the ids are the base four, then a3, a4 iff anxiety reached 3.0, then m3, m4 iff mood reached 3.0 |
| Questions.FollowUpsWhenThresholdReached | server/db.ts:115-121 | each follow-up id appears iff there is a prior summary and its domain score reached 3.0, and the anxiety pair precedes the mood pair |
| Questions.QuestionIdsDistinct | server/db.ts:92-107 | no id is offered twice |
| Questions.CatalogueAgreesWithScoring | server/db.ts:92-107 | every catalogue question is scored in the domain the catalogue gives it |
| Questions.FollowUpsMonotone | server/db.ts:115-120 | higher prior scores never remove a question |
| Questions.QuestionsForExamples | server/db.ts:109-122 | mood 3.5 with anxiety 1.0 adds only m3, m4; 3.5 in both adds a3, a4 and then m3, m4 |
| Advice.AdviceFor | server/db.ts:143-169 | exactly 3 items plus one per tip that applies; the first three are the severity's block and no item of another block appears; the mindfulness tip appears iff anxiety is at least 3.5 and the activity tip iff mood is; with both, mindfulness comes first |
| Advice.LowSeverityGetsOnlyItsBlock | server/db.ts:136-168 | a consistent `low` summary gets exactly the three `low` items |
| Advice.LowSummaryAdvice | server/db.ts:124-168 | advice for any `low` summary of a set of answers has exactly 3 items |
| Advice.AdviceExamples | server/db.ts:143-169 | `high` with scores 2.0 gets only its block; an inconsistent `low` summary with scores 3.5 gets its block and both tips in order |
| Db.EmptyIsValid | server/db.ts:19 | the empty store satisfies the store invariant |
| Db.FindIn | server/db.ts:36 | a result is a stored user whose email matches up to letter case and no listed id before it names a matching user; no result means no listed user matches |
| Db.FindByEmail | server/db.ts:36 | the lookup returns the first user, in insertion order, whose email matches up to letter case, and returns nothing only when no listed user matches |
| Db.FindByEmailComplete | server/db.ts:36 | in a valid store the lookup finds nothing iff no stored user's email matches |
| Db.GetOrCreateUserByEmail | server/db.ts:34-47 | a matched user keeps id, email, creation time and history and gets the name only if given non-empty and none is stored; otherwise a new user with the given email and an empty history is added under the fresh id; sessions never change |
| Db.GetOrCreateKeepsValid | server/db.ts:34-47 | with a fresh id the store stays valid, so no two users share an email up to case, and the returned user is stored under its id |
| Db.ReturningUserUnchanged | server/db.ts:36-45 | a returning user keeps id, email, creation time and history; a stored name is never replaced and a missing one is filled from a non-empty given name |
| Db.CreateSession | server/db.ts:49-55 | the returned token is the fresh one and maps to the user id; users and all other sessions are unchanged |
| Db.GetUserBySession | server/db.ts:57-63 | a user is returned iff the token is non-empty, stored, and names a stored user, and it is that user |
| Db.SessionResolvesIffStored | server/db.ts:57-63 | in a valid store a token resolves iff it is non-empty and stored |
| Db.LogoutSession | server/db.ts:65-72 | users never change; a missing, empty or unknown token changes nothing; otherwise the token is gone and every other session is kept |
| Db.LogoutRevokesOnlyThatToken | server/db.ts:65-72 | after logout the token no longer resolves and any other token resolves as before |
| Db.AddAssessment | server/db.ts:74-80 | fails with "User not found" iff the user is unknown; otherwise the record is appended to that user's history and nothing else changes |
| Db.GetLatestAssessment | server/db.ts:82-87 | nothing iff the user is unknown or has no history, otherwise the last record |
| Db.AddThenLatest | server/db.ts:74-87 | after appending, the latest record of that user is the new record and other users' latest records are unchanged |
| Db.AddAssessmentKeepsValid | server/db.ts:74-80 | appending to a stored user succeeds and keeps the store valid |
| Db.CreateSessionKeepsValid | server/db.ts:49-55 | a session for a stored user keeps the store valid |
| Db.LogoutKeepsValid | server/db.ts:65-72 | logout keeps the store valid |
| AuthRoutes.IndexOf | backend/routes/auth.ts:7 | the result is the first position of the character, and absence means the character does not occur |
| AuthRoutes.IsEmailShaped | backend/routes/auth.ts:7 | an accepted email has no white space and exactly one `@`, with at least one character before it and at least three after it; a string without `@` is rejected |
| AuthRoutes.EmailShapeMatchesPattern | backend/routes/auth.ts:7 | the one-pass email test accepts exactly the strings `/^[^@\s]+@[^@\s]+\.[^@\s]+$/` matches |
| AuthRoutes.EmailShapeIgnoresCase | backend/routes/auth.ts:7 | emails equal up to letter case are both accepted or both rejected |
| AuthRoutes.HandleLogin | backend/routes/auth.ts:5-14 | a missing, empty or ill-shaped email gets 400 with no state change; otherwise the reply carries the fresh token, which maps to the returned user, whose email matches up to case; a matched user is stored again changed only by the name rule (`name && !user.name`), so its id, email, creation time and history are kept, and a new one is stored under the fresh id and appended to the insertion order unless that id was already stored; every other user and every other session is unchanged |
| AuthRoutes.RejectedLoginChangesNothing | backend/routes/auth.ts:7-9 | a rejected login answers 400 and leaves the store as it was |
| AuthRoutes.LoginThenGetUser | backend/routes/auth.ts:10-21 | after a login with a fresh id the store is valid and `handleGetUser` with the returned token echoes the returned user |
| AuthRoutes.CaseInsensitiveLogin | backend/routes/auth.ts:10 | two logins whose emails differ only in case reach the same user id and stored email, which is the first login's email when the user was new |
| AuthRoutes.HandleGetUser | backend/routes/auth.ts:16-22 | the user's public fields when the header resolves, otherwise 401 |
| AuthRoutes.UnknownSessionUnauthorized | backend/routes/auth.ts:17-19 | a missing or empty header, or an unknown token, gets 401 |
| AuthRoutes.HandleLogout | backend/routes/auth.ts:24-29 | 400 and no change without a non-empty token; otherwise ok and the token is logged out |
| AuthRoutes.LogoutThenGetUser | backend/routes/auth.ts:24-29 | logout answers ok; the token then gets 401 and every other token gets what it got before |
| AuthRoutes.EmptyHeaderShadowsBodyToken | backend/routes/auth.ts:25-26 | an empty header is kept by `??`, so a token in the body is ignored and the reply is 400 |
| AuthRoutes.AuthHandlersKeepValid | backend/routes/auth.ts:5-29 | login with a fresh user id and logout keep the store valid |
| AssessmentRoutes.HandleGetQuestions | backend/routes/assessment.ts:12-17 | never rejects; a caller without a session gets exactly the base four; every question is a five-point scale |
| AssessmentRoutes.LatestSummary | server/db.ts:109-110 | without a resolvable session there is no prior summary; in a valid store an authenticated caller has one iff their history is non-empty, and it is the summary of their last record |
| AssessmentRoutes.QuestionsDependOnlyOnLatestSummary | backend/routes/assessment.ts:12-17 | two callers whose latest stored summaries agree get the same questions |
| AssessmentRoutes.HandleSubmitAssessment | backend/routes/assessment.ts:19-37 | 401 without a session comes before 400 without an answer array, and both store nothing; on success the caller's user changes only by one record appended with the raw answers and their summary, while insertion order, other users and sessions are untouched, and the reply carries the record id, the summary and its advice |
| AssessmentRoutes.SubmitSucceedsWhenValid | backend/routes/assessment.ts:25-34 | in a valid store an authenticated submit with an answer array succeeds and keeps the store valid |
| AssessmentRoutes.SubmitKeepsValid | backend/routes/assessment.ts:19-37 | submit keeps the store valid whatever its outcome |
| AssessmentRoutes.HandleLatestAssessment | backend/routes/assessment.ts:39-46 | 401 without a session; `null` iff the caller has no records; otherwise the stored summary of the latest record and the advice for it |
| AssessmentRoutes.LatestWithoutRecords | backend/routes/assessment.ts:41-43 | an authenticated caller with no records gets `null` |
| AssessmentRoutes.SubmitThenLatest | backend/routes/assessment.ts:35-44 | right after a successful submit the latest-result reply equals the submit's advice |
| AssessmentRoutes.SubmitThenQuestions | backend/routes/assessment.ts:12-16 | after a submit, a3 and a4 are offered iff its anxiety score reached 3.0, and m3 and m4 iff its mood score did |

## Left out

- File persistence (`ensureDb`, `readDB`, `writeDB`): the store is an in-memory value, and each operation's read-modify-write is one function.
- UUID generation and `new Date().toISOString()`: ids and timestamps are parameters. `HandleLogin` uses one clock reading for both the user and the session timestamp.
- Floating point: scores are exact tenths. Fractional, `NaN` or infinite numeric answer values are not modelled; the client sends `parseInt` output. `parseInt`'s loss of precision above 2^53 is not modelled either.
- `toLowerCase` is modelled for ASCII letters only. Other Unicode case mappings, some of which change the length of a string, are not modelled.
- JSON answer values other than numbers and strings (`null`, booleans, arrays, objects) go through `String(...)` in the source. They can be given as the `Str` of that rendering. An array element that is a number, string or boolean has neither `questionId` nor `value`; the source counts it as an unmapped answer and stores it as sent. The model can give it as an `Answer` whose `questionId` maps to no domain, but cannot store its raw form. A `null` element makes the source throw at `a.value` (a 500); that case is not modelled.
- A request body missing altogether at login, which makes the destructuring throw, is not modelled: the login request is a datatype with optional fields.
- Keys that name inherited `Object.prototype` members (a token spelled `constructor`, say) are treated as plain absent keys.
- Express wiring, middleware, CORS, header and body parsing are replaced by request datatypes. A thrown error is modelled as the 500 reply of Express's default handler.
- Concurrent read-modify-write races on the store: every operation is atomic here.
- The React pages and the browser auth context (local storage, fetch, navigation).
- Question and recommendation texts are kept as constants with their exact characters, including the mis-encoded dash of the mindfulness tip. No property depends on their wording beyond being distinct.
- Session expiry: the source has none, and neither does the model.
- AssessmentRoutes.HandleGetQuestions: its contract covers only the caller without a session and the question shape. What an authenticated caller gets is stated by `QuestionsDependOnlyOnLatestSummary` and `SubmitThenQuestions`.
- JsText.ParseInt: its own contract says exactly when `parseInt` reads a number, not which one. The value is stated by `ParseIntDigitPrefix` for decimal text and by `ParseIntRoundTrip` for `String(n)`. For base 16 after `0x` it is stated only by the worked value `ParseIntHexExample`.

=== FILE: advice.dfy ===
/** The advice of server/db.ts: one three-item block chosen by severity, then a
    mindfulness tip when the anxiety score reached 3.5 and an activity tip when the mood
    score did. The texts are kept as written, including the mis-encoded dash of the
    mindfulness tip. */
module Advice {
  import opened Api
  import opened Scoring

  const LowBlock: seq<string> := [
    "Keep up healthy habits: regular sleep, movement, and time with friends.",
    "Try a 5-minute breathing exercise during study breaks.",
    "Use campus wellness resources when needed."
  ]

  const ModerateBlock: seq<string> := [
    "Schedule a brief check-in with a counselor or peer support.",
    "Use guided journaling to track triggers and moods.",
    "Practice the 3-3-3 grounding technique during stress."
  ]

  const HighBlock: seq<string> := [
    "Consider contacting campus counseling for a professional evaluation.",
    "Create a support plan with trusted friends or mentors.",
    "If in crisis, call local emergency services or a crisis hotline immediately."
  ]

  const MindfulnessTip: string := "Try short, daily mindfulness sessions (5\U{00E2}\U{20AC}\U{201C}10 min)."
  const ActivityTip: string := "Plan small, enjoyable activities each day to boost mood."

  /** A domain score at or above this many tenths adds that domain's tip. */
  const TipThreshold: int := 35

  function Block(sev: Severity): (b: seq<string>)
    ensures |b| == 3
  {
    match sev
    case Low => LowBlock
    case Moderate => ModerateBlock
    case High => HighBlock
  }

  /** `adviceForSummary`. */
  function AdviceFor(s: Summary): (recs: seq<string>)
    ensures |recs| == 3 + (if s.anxietyScore >= TipThreshold then 1 else 0)
                        + (if s.moodScore >= TipThreshold then 1 else 0)
    ensures recs[..3] == Block(s.severity)
    ensures MindfulnessTip in recs <==> s.anxietyScore >= TipThreshold
    ensures ActivityTip in recs <==> s.moodScore >= TipThreshold
    ensures |recs| == 5 ==> recs[3] == MindfulnessTip && recs[4] == ActivityTip
    ensures forall other: Severity, i :: other != s.severity && 0 <= i < 3 ==> Block(other)[i] !in recs
  {
    var mindfulness := if s.anxietyScore >= TipThreshold then [MindfulnessTip] else [];
    var activity := if s.moodScore >= TipThreshold then [ActivityTip] else [];
    Block(s.severity) + mindfulness + activity
  }

  /** A `low` summary that `Summarize` could produce gets exactly its three-item block:
      both scores are then below 3.0, so below either tip's threshold. */
  lemma LowSeverityGetsOnlyItsBlock(s: Summary)
    requires Consistent(s) && s.severity == Low
    ensures AdviceFor(s) == LowBlock
  {
  }

  /** In particular for every summary of a set of answers. */
  lemma LowSummaryAdvice(answers: seq<Answer>)
    requires Summarize(answers).severity == Low
    ensures |AdviceFor(Summarize(answers))| == 3
  {
    LowSeverityGetsOnlyItsBlock(Summarize(answers));
  }

  /** Worked values: `high` with both scores 2.0 gets only its block; an inconsistent
      `low` summary with both scores 3.5 gets its block and both tips, in that order. */
  lemma AdviceExamples()
    ensures AdviceFor(Summary(20, 20, High)) == HighBlock
    ensures AdviceFor(Summary(35, 35, Low)) == LowBlock + [MindfulnessTip, ActivityTip]
  {
  }
}

=== FILE: api.dfy ===
/** The shapes exchanged between the client and the server (shared/api.ts). */
module Api {
  import opened Wrappers

  /** Opaque identifiers (UUIDs in the program) and ISO-8601 timestamps. */
  type Id = string
  type Timestamp = string

  datatype Severity = Low | Moderate | High

  /** The public view of a user: no assessment history. */
  datatype User = User(id: Id, email: string, name: Option<string>, createdAt: Timestamp)

  datatype QuestionKind = Scale | Choice

  /** A question as sent to the client; every question the server builds has its
      range and labels set, so they are not optional here. */
  datatype Question = Question(id: Id, text: string, kind: QuestionKind, min: int, max: int, labels: seq<string>)

  /** An answer value arrives as a JSON number or a JSON string. Only integral numbers
      are modelled. */
  datatype AnswerValue = Num(n: int) | Str(s: string)

  datatype Answer = Answer(questionId: string, value: AnswerValue)

  /** Domain scores are kept in tenths: `35` stands for the score 3.5. */
  datatype Summary = Summary(moodScore: int, anxietyScore: int, severity: Severity)

  /** One stored check-in. */
  datatype AssessmentRecord = AssessmentRecord(id: Id, userId: Id, answers: seq<Answer>, summary: Summary, createdAt: Timestamp)

  datatype SessionResponse = SessionResponse(sessionId: Id, user: User)
  datatype UserResponse = UserResponse(user: User)
  datatype GetQuestionsResponse = GetQuestionsResponse(questions: seq<Question>)
  datatype AdviceResponse = AdviceResponse(summary: Summary, recommendations: seq<string>)
  datatype SubmitAssessmentResponse = SubmitAssessmentResponse(recordId: Id, advice: AdviceResponse)

  /** The `{ ok: true }` body of a successful logout. */
  datatype LogoutResponse = LogoutOk

  /** What a handler sends: a JSON body with status 200, or an error status with a
      message. A handler's own rejections send the message as `{ error }`; a 500 stands
      for an error the handler throws, which the framework's default error handler
      answers, the message being the thrown error's. */
  datatype Reply<+T> = Json(body: T) | Fail(status: nat, error: string)

  const BadRequest: nat := 400
  const Unauthorized: nat := 401
  const ServerError: nat := 500

  /** The message of every 401. */
  const UnauthorizedMessage: string := "Unauthorized"
}

=== FILE: assessment_routes.dfy ===
/** The question, submit and latest-result handlers of backend/routes/assessment.ts:
    they resolve the caller from the session header and compose scoring, advice,
    question choice and the store. */
module AssessmentRoutes {
  import opened Wrappers
  import opened Api
  import opened Db
  import opened Scoring
  import opened Questions
  import opened Advice

  /** The `answers` field of a submit body: missing (or falsy, or no body at all),
      present but not an array, or an array of answers. */
  datatype AnswersField = Absent | NotAnArray | AnswerList(items: seq<Answer>)

  const InvalidAnswersMessage: string := "Invalid answers"

  /** The summary of the latest record of the caller the header names, if any
      (`getQuestionsForUser` reads nothing else). */
  function LatestSummary(s: Store, sessionHeader: Option<string>): (r: Option<Summary>)
    ensures GetUserBySession(s, sessionHeader).None? ==> r.None?
    ensures Valid(s) && GetUserBySession(s, sessionHeader).Some? ==>
              var history := GetUserBySession(s, sessionHeader).value.assessments;
              && (r.None? <==> |history| == 0)
              && (r.Some? ==> r.value == history[|history| - 1].summary)
  {
    match GetUserBySession(s, sessionHeader)
    case None => None
    case Some(u) =>
      match GetLatestAssessment(s, u.id)
      case None => None
      case Some(record) => Some(record.summary)
  }

  /** `handleGetQuestions`: never rejects; a caller without a session gets the base four. */
  function HandleGetQuestions(s: Store, sessionHeader: Option<string>): (r: GetQuestionsResponse)
    ensures GetUserBySession(s, sessionHeader).None? ==> Ids(r.questions) == BaseIds
    ensures forall i :: 0 <= i < |r.questions| ==> IsFivePointScale(r.questions[i])
  {
    GetQuestionsResponse(QuestionsFor(LatestSummary(s, sessionHeader)))
  }

  /** `handleSubmitAssessment`: 401 without a resolvable session, 400 without an answer
      array, else score the answers, append the record and return the advice. A failed
      append is a thrown error, which the framework answers with 500. */
  function HandleSubmitAssessment(s: Store, sessionHeader: Option<string>, answers: AnswersField,
                                  freshRecordId: Id, now: Timestamp)
    : (r: Step<Reply<SubmitAssessmentResponse>>)
    ensures GetUserBySession(s, sessionHeader).None? ==> r == Step(s, Fail(Unauthorized, UnauthorizedMessage))
    ensures GetUserBySession(s, sessionHeader).Some? && !answers.AnswerList? ==>
              r == Step(s, Fail(BadRequest, InvalidAnswersMessage))
    ensures r.value.Fail? ==> r.store == s
    ensures r.value.Json? ==>
              var u := GetUserBySession(s, sessionHeader).value;
              var summary := Summarize(answers.items);
              && answers.AnswerList?
              && u.id in s.users
              && r.store.users.Keys == s.users.Keys
              && r.store.users[u.id]
                 == s.users[u.id].(assessments := s.users[u.id].assessments
                                                  + [AssessmentRecord(freshRecordId, u.id, answers.items, summary, now)])
              && (forall id :: id in s.users && id != u.id ==> r.store.users[id] == s.users[id])
              && r.store.order == s.order
              && r.store.sessions == s.sessions
              && r.value.body.recordId == freshRecordId
              && r.value.body.advice == AdviceResponse(summary, AdviceFor(summary))
  {
    match GetUserBySession(s, sessionHeader)
    case None => Step(s, Fail(Unauthorized, UnauthorizedMessage))
    case Some(u) =>
      if !answers.AnswerList? then Step(s, Fail(BadRequest, InvalidAnswersMessage))
      else
        var summary := Summarize(answers.items);
        var record := AssessmentRecord(freshRecordId, u.id, answers.items, summary, now);
        match AddAssessment(s, u.id, record)
        case Err(message) => Step(s, Fail(ServerError, message))
        case Ok(s') =>
          Step(s', Json(SubmitAssessmentResponse(freshRecordId, AdviceResponse(summary, AdviceFor(summary)))))
  }

  /** `handleLatestAssessment`: 401 without a resolvable session, `null` without records,
      else the stored summary of the latest record and the advice for it. The summary is
      read back, not recomputed from the stored answers. */
  function HandleLatestAssessment(s: Store, sessionHeader: Option<string>): (r: Reply<Option<AdviceResponse>>)
    ensures GetUserBySession(s, sessionHeader).None? ==> r == Fail(Unauthorized, UnauthorizedMessage)
    ensures GetUserBySession(s, sessionHeader).Some? ==>
              var u := GetUserBySession(s, sessionHeader).value;
              && r.Json?
              && (r.body.None? <==> GetLatestAssessment(s, u.id).None?)
              && (r.body.Some? ==>
                    var stored := GetLatestAssessment(s, u.id).value.summary;
                    r.body.value == AdviceResponse(stored, AdviceFor(stored)))
  {
    match GetUserBySession(s, sessionHeader)
    case None => Fail(Unauthorized, UnauthorizedMessage)
    case Some(u) =>
      match GetLatestAssessment(s, u.id)
      case None => Json(None)
      case Some(latest) => Json(Some(AdviceResponse(latest.summary, AdviceFor(latest.summary))))
  }

  // ---------------------------------------------------------------------------------
  // Properties of the handlers

  /** In a valid store an authenticated submit with an answer array always succeeds: the
      append cannot fail, so no 500 is sent. */
  lemma SubmitSucceedsWhenValid(s: Store, sessionHeader: Option<string>, items: seq<Answer>,
                                freshRecordId: Id, now: Timestamp)
    requires Valid(s) && GetUserBySession(s, sessionHeader).Some?
    ensures HandleSubmitAssessment(s, sessionHeader, AnswerList(items), freshRecordId, now).value.Json?
    ensures Valid(HandleSubmitAssessment(s, sessionHeader, AnswerList(items), freshRecordId, now).store)
  {
    var u := GetUserBySession(s, sessionHeader).value;
    var record := AssessmentRecord(freshRecordId, u.id, items, Summarize(items), now);
    AddAssessmentKeepsValid(s, u.id, record);
  }

  /** Right after a successful submit, the latest-result endpoint returns the same
      summary and recommendations as the submit did. */
  lemma SubmitThenLatest(s: Store, sessionHeader: Option<string>, answers: AnswersField,
                         freshRecordId: Id, now: Timestamp)
    requires Valid(s)
    requires HandleSubmitAssessment(s, sessionHeader, answers, freshRecordId, now).value.Json?
    ensures var r := HandleSubmitAssessment(s, sessionHeader, answers, freshRecordId, now);
            HandleLatestAssessment(r.store, sessionHeader) == Json(Some(r.value.body.advice))
  {
    var u := GetUserBySession(s, sessionHeader).value;
    var r := HandleSubmitAssessment(s, sessionHeader, answers, freshRecordId, now);
    assert GetUserBySession(r.store, sessionHeader) == Some(r.store.users[u.id]);
  }

  /** Right after a submit whose anxiety score reached 3.0, the next questions for the
      same caller include the anxiety follow-ups; likewise for mood. */
  lemma SubmitThenQuestions(s: Store, sessionHeader: Option<string>, items: seq<Answer>,
                            freshRecordId: Id, now: Timestamp)
    requires Valid(s) && GetUserBySession(s, sessionHeader).Some?
    ensures var r := HandleSubmitAssessment(s, sessionHeader, AnswerList(items), freshRecordId, now);
            var ids := Ids(HandleGetQuestions(r.store, sessionHeader).questions);
            && ("a3" in ids && "a4" in ids <==> Summarize(items).anxietyScore >= FollowUpThreshold)
            && ("m3" in ids && "m4" in ids <==> Summarize(items).moodScore >= FollowUpThreshold)
  {
    SubmitSucceedsWhenValid(s, sessionHeader, items, freshRecordId, now);
    var u := GetUserBySession(s, sessionHeader).value;
    var r := HandleSubmitAssessment(s, sessionHeader, AnswerList(items), freshRecordId, now);
    assert GetUserBySession(r.store, sessionHeader) == Some(r.store.users[u.id]);
    assert LatestSummary(r.store, sessionHeader) == Some(Summarize(items));
    FollowUpsWhenThresholdReached(Some(Summarize(items)));
  }

  /** The questions a caller gets depend on nothing but the summary of that caller's
      latest record. */
  lemma QuestionsDependOnlyOnLatestSummary(s: Store, h: Option<string>, s': Store, h': Option<string>)
    requires LatestSummary(s, h) == LatestSummary(s', h')
    ensures HandleGetQuestions(s, h) == HandleGetQuestions(s', h')
  {
  }

  /** An authenticated caller without records gets `null`, not an error. */
  lemma LatestWithoutRecords(s: Store, sessionHeader: Option<string>)
    requires Valid(s) && Truthy(sessionHeader) && sessionHeader.value in s.sessions
    requires |s.users[s.sessions[sessionHeader.value].userId].assessments| == 0
    ensures HandleLatestAssessment(s, sessionHeader) == Json(None)
  {
  }

  /** Submit keeps the store valid whatever its outcome. */
  lemma SubmitKeepsValid(s: Store, sessionHeader: Option<string>, answers: AnswersField,
                         freshRecordId: Id, now: Timestamp)
    requires Valid(s)
    ensures Valid(HandleSubmitAssessment(s, sessionHeader, answers, freshRecordId, now).store)
  {
    if GetUserBySession(s, sessionHeader).Some? && answers.AnswerList? {
      SubmitSucceedsWhenValid(s, sessionHeader, answers.items, freshRecordId, now);
    }
  }
}

=== FILE: auth_routes.dfy ===
/** The login, current-user and logout handlers of backend/routes/auth.ts, as functions
    from the store and a request to the new store and the reply. */
module AuthRoutes {
  import opened Wrappers
  import opened Api
  import opened Db
  import JsText

  // ---------------------------------------------------------------------------------
  // The email shape

  /** A character the class `[^@\s]` admits. */
  predicate PlainChar(c: char) {
    c != '@' && !JsText.IsSpace(c)
  }

  /** A string `[^@\s]+` matches whole. */
  predicate PlainRun(p: string) {
    |p| > 0 && forall i :: 0 <= i < |p| ==> PlainChar(p[i])
  }

  /** What `/^[^@\s]+@[^@\s]+\.[^@\s]+$/` matches: a local part, an `@`, and a domain
      that some `.` splits into two non-empty parts, with no part holding `@` or white
      space. */
  ghost predicate MatchesEmailPattern(e: string) {
    exists at, dot :: 0 <= at < dot < |e| && e[at] == '@' && e[dot] == '.'
                      && PlainRun(e[..at]) && PlainRun(e[at + 1..dot]) && PlainRun(e[dot + 1..])
  }

  /** The position of the first `c` in `s`. */
  function IndexOf(s: string, c: char): (r: Option<nat>)
    ensures r.Some? ==> r.value < |s| && s[r.value] == c && c !in s[..r.value]
    ensures r.None? ==> c !in s
  {
    if |s| == 0 then None
    else if s[0] == c then Some(0)
    else
      match IndexOf(s[1..], c)
      case None => None
      case Some(i) =>
        assert s[..i + 1] == [s[0]] + s[1..][..i];
        Some(i + 1)
  }

  /** The email test of `handleLogin`, as one pass: no white space, one `@` with text
      before it, and a `.` in the domain with text on both sides. */
  function IsEmailShaped(e: string): (r: bool)
    ensures r ==> forall i :: 0 <= i < |e| ==> !JsText.IsSpace(e[i])
    ensures r ==> exists at :: 0 < at && at + 3 < |e| && e[at] == '@' && '@' !in e[..at] && '@' !in e[at + 1..]
    ensures !('@' in e) ==> !r
  {
    && (forall i | 0 <= i < |e| :: !JsText.IsSpace(e[i]))
    && match IndexOf(e, '@')
       case None => false
       case Some(at) =>
         var domain := e[at + 1..];
         at > 0 && '@' !in domain && |domain| >= 3 && '.' in domain[1..|domain| - 1]
  }

  /** `at` and `dot` split `e` the way the pattern needs: text, `@`, text, `.`, text,
      with every character but the `@` plain. */
  predicate SplitsAt(e: string, at: int, dot: int) {
    && 0 < at && at + 1 < dot && dot + 1 < |e|
    && e[at] == '@' && e[dot] == '.'
    && forall i :: 0 <= i < |e| && i != at ==> PlainChar(e[i])
  }

  lemma PlainRunChar(e: string, lo: int, hi: int, i: int)
    requires 0 <= lo <= i < hi <= |e| && PlainRun(e[lo..hi])
    ensures PlainChar(e[i])
  {
    assert e[lo..hi][i - lo] == e[i];
  }

  lemma PlainRunFromChars(e: string, lo: int, hi: int)
    requires 0 <= lo < hi <= |e|
    requires forall i :: lo <= i < hi ==> PlainChar(e[i])
    ensures PlainRun(e[lo..hi])
  {
    forall i | 0 <= i < hi - lo ensures PlainChar(e[lo..hi][i]) {
      assert e[lo..hi][i] == e[lo + i];
    }
  }

  lemma PatternWitness(e: string) returns (at: int, dot: int)
    requires MatchesEmailPattern(e)
    ensures SplitsAt(e, at, dot)
  {
    at, dot :| 0 <= at < dot < |e| && e[at] == '@' && e[dot] == '.'
               && PlainRun(e[..at]) && PlainRun(e[at + 1..dot]) && PlainRun(e[dot + 1..]);
    assert e[..at] == e[0..at] && e[dot + 1..] == e[dot + 1..|e|];
    forall i | 0 <= i < |e| && i != at ensures PlainChar(e[i]) {
      if i < at {
        PlainRunChar(e, 0, at, i);
      } else if i < dot {
        PlainRunChar(e, at + 1, dot, i);
      } else if i > dot {
        PlainRunChar(e, dot + 1, |e|, i);
      }
    }
  }

  lemma PatternFromSplit(e: string, at: int, dot: int)
    requires SplitsAt(e, at, dot)
    ensures MatchesEmailPattern(e)
  {
    PlainRunFromChars(e, 0, at);
    PlainRunFromChars(e, at + 1, dot);
    PlainRunFromChars(e, dot + 1, |e|);
    assert e[..at] == e[0..at] && e[dot + 1..] == e[dot + 1..|e|];
  }

  lemma ShapedHasSplit(e: string) returns (at: int, dot: int)
    requires IsEmailShaped(e)
    ensures SplitsAt(e, at, dot)
  {
    at := IndexOf(e, '@').value;
    var domain := e[at + 1..];
    forall i | 0 <= i < |e| && i != at ensures PlainChar(e[i]) {
      if i < at {
        assert e[i] == e[..at][i];
      } else {
        assert e[i] == domain[i - at - 1];
      }
    }
    var inner := domain[1..|domain| - 1];
    var j :| 0 <= j < |inner| && inner[j] == '.';
    dot := at + 2 + j;
    assert e[dot] == inner[j];
  }

  lemma SplitIsShaped(e: string, at: int, dot: int)
    requires SplitsAt(e, at, dot)
    ensures IsEmailShaped(e)
  {
    var found := IndexOf(e, '@');
    assert e[at] in e;
    assert found.value == at;
    var domain := e[at + 1..];
    assert '@' !in domain by {
      forall k | 0 <= k < |domain| ensures domain[k] != '@' {
        assert domain[k] == e[at + 1 + k];
      }
    }
    assert domain[1..|domain| - 1][dot - at - 2] == '.';
  }

  /** The one-pass test accepts exactly the strings the regular expression matches. */
  lemma EmailShapeMatchesPattern(e: string)
    ensures IsEmailShaped(e) <==> MatchesEmailPattern(e)
  {
    if IsEmailShaped(e) {
      var at, dot := ShapedHasSplit(e);
      PatternFromSplit(e, at, dot);
    }
    if MatchesEmailPattern(e) {
      var at, dot := PatternWitness(e);
      SplitIsShaped(e, at, dot);
    }
  }

  /** Strings that agree on where `@`, `.` and white space stand split alike. */
  lemma SplitTransfers(a: string, b: string, at: int, dot: int)
    requires |a| == |b|
    requires forall i :: 0 <= i < |a| ==>
               (a[i] == '@' <==> b[i] == '@') && (a[i] == '.' <==> b[i] == '.')
               && (JsText.IsSpace(a[i]) <==> JsText.IsSpace(b[i]))
    requires SplitsAt(a, at, dot)
    ensures SplitsAt(b, at, dot)
  {
  }

  /** Whether an email has the shape does not depend on letter case. */
  lemma EmailShapeIgnoresCase(e1: string, e2: string)
    requires JsText.EqualsIgnoringCase(e1, e2)
    ensures IsEmailShaped(e1) <==> IsEmailShaped(e2)
  {
    assert |e1| == |e2| by {
      assert |JsText.ToLower(e1)| == |JsText.ToLower(e2)|;
    }
    forall i | 0 <= i < |e1| ensures (e1[i] == '@' <==> e2[i] == '@') && (e1[i] == '.' <==> e2[i] == '.')
                                     && (JsText.IsSpace(e1[i]) <==> JsText.IsSpace(e2[i]))
    {
      assert JsText.ToLower(e1)[i] == JsText.ToLower(e2)[i];
      JsText.LowerCharKeepsNonLetters(e1[i]);
      JsText.LowerCharKeepsNonLetters(e2[i]);
    }
    if IsEmailShaped(e1) {
      var at, dot := ShapedHasSplit(e1);
      SplitTransfers(e1, e2, at, dot);
      SplitIsShaped(e2, at, dot);
    }
    if IsEmailShaped(e2) {
      var at, dot := ShapedHasSplit(e2);
      SplitTransfers(e2, e1, at, dot);
      SplitIsShaped(e1, at, dot);
    }
  }

  // ---------------------------------------------------------------------------------
  // Handlers

  /** The body of a login request; a field that is absent is `None`. */
  datatype LoginRequest = LoginRequest(email: Option<string>, name: Option<string>)

  const InvalidEmailMessage: string := "Valid email is required"
  const MissingSessionMessage: string := "Missing session"

  /** Whether `handleLogin` accepts the request's email. */
  predicate AcceptsEmail(req: LoginRequest) {
    Truthy(req.email) && IsEmailShaped(req.email.value)
  }

  /** `handleLogin`: reject a missing or ill-shaped email with 400; otherwise find or
      create the user, open a session for it, and return the token with the user. One
      clock reading stands for both timestamps. */
  function HandleLogin(s: Store, req: LoginRequest, freshUserId: Id, freshToken: Id, now: Timestamp)
    : (r: Step<Reply<SessionResponse>>)
    ensures !AcceptsEmail(req) ==> r == Step(s, Fail(BadRequest, InvalidEmailMessage))
    ensures AcceptsEmail(req) ==>
              && r.value.Json?
              && r.value.body.sessionId == freshToken
              && JsText.EqualsIgnoringCase(r.value.body.user.email, req.email.value)
              && freshToken in r.store.sessions
              && r.store.sessions[freshToken].userId == r.value.body.user.id
    ensures AcceptsEmail(req) ==>
              && r.store.sessions.Keys == s.sessions.Keys + {freshToken}
              && (forall t :: t in s.sessions && t != freshToken ==> r.store.sessions[t] == s.sessions[t])
    ensures AcceptsEmail(req) && FindByEmail(s, req.email.value).Some? ==>
              var k := FindByEmail(s, req.email.value).value;
              && r.value.Json?
              && r.value.body.user.id == s.users[k].id
              && r.value.body.user.email == s.users[k].email
              && r.value.body.user.createdAt == s.users[k].createdAt
              && r.store.users.Keys == s.users.Keys && r.store.order == s.order
              && r.store.users[k].Public() == r.value.body.user
              && r.store.users[k] == s.users[k].(name := NameAfterLogin(s.users[k].name, req.name))
              && (forall id :: id in s.users && id != k ==> r.store.users[id] == s.users[id])
    ensures AcceptsEmail(req) && FindByEmail(s, req.email.value).None? ==>
              && r.value == Json(SessionResponse(freshToken, User(freshUserId, req.email.value, req.name, now)))
              && r.store.users.Keys == s.users.Keys + {freshUserId}
              && r.store.order == (if freshUserId in s.users then s.order else s.order + [freshUserId])
              && r.store.users[freshUserId] == DbUser(freshUserId, req.email.value, req.name, now, [])
              && (forall id :: id in s.users && id != freshUserId ==> r.store.users[id] == s.users[id])
  {
    if !AcceptsEmail(req) then Step(s, Fail(BadRequest, InvalidEmailMessage))
    else
      var created := GetOrCreateUserByEmail(s, req.email.value, req.name, freshUserId, now);
      var started := CreateSession(created.store, created.value.id, freshToken, now);
      Step(started.store, Json(SessionResponse(started.value, created.value.Public())))
  }

  /** `handleGetUser`: the caller's public user data, or 401. */
  function HandleGetUser(s: Store, sessionHeader: Option<string>): (r: Reply<UserResponse>)
    ensures r.Json? <==> GetUserBySession(s, sessionHeader).Some?
    ensures r.Json? ==> r.body.user == GetUserBySession(s, sessionHeader).value.Public()
    ensures r.Fail? ==> r == Fail(Unauthorized, UnauthorizedMessage)
  {
    match GetUserBySession(s, sessionHeader)
    case None => Fail(Unauthorized, UnauthorizedMessage)
    case Some(u) => Json(UserResponse(u.Public()))
  }

  /** The token a logout acts on: the header when it is present at all (`??`), the body's
      `sessionId` otherwise. */
  function LogoutToken(sessionHeader: Option<string>, bodyToken: Option<string>): Option<string> {
    if sessionHeader.Some? then sessionHeader else bodyToken
  }

  /** `handleLogout`: 400 without a token, otherwise forget it and answer ok. */
  function HandleLogout(s: Store, sessionHeader: Option<string>, bodyToken: Option<string>)
    : (r: Step<Reply<LogoutResponse>>)
    ensures !Truthy(LogoutToken(sessionHeader, bodyToken)) ==> r == Step(s, Fail(BadRequest, MissingSessionMessage))
    ensures Truthy(LogoutToken(sessionHeader, bodyToken)) ==>
              && r.value == Json(LogoutOk)
              && r.store == LogoutSession(s, LogoutToken(sessionHeader, bodyToken))
  {
    var token := LogoutToken(sessionHeader, bodyToken);
    if !Truthy(token) then Step(s, Fail(BadRequest, MissingSessionMessage))
    else Step(LogoutSession(s, token), Json(LogoutOk))
  }

  // ---------------------------------------------------------------------------------
  // Properties of the handlers

  /** A successful login keeps the store valid, and the token it returns resolves, through
      `handleGetUser`, to the user it returned. */
  lemma LoginThenGetUser(s: Store, req: LoginRequest, freshUserId: Id, freshToken: Id, now: Timestamp)
    requires Valid(s) && freshUserId !in s.users && freshToken != ""
    requires AcceptsEmail(req)
    ensures var r := HandleLogin(s, req, freshUserId, freshToken, now);
            && Valid(r.store)
            && r.value.Json?
            && HandleGetUser(r.store, Some(freshToken)) == Json(UserResponse(r.value.body.user))
  {
    var created := GetOrCreateUserByEmail(s, req.email.value, req.name, freshUserId, now);
    GetOrCreateKeepsValid(s, req.email.value, req.name, freshUserId, now);
    CreateSessionKeepsValid(created.store, created.value.id, freshToken, now);
  }

  /** A missing or empty header, or a token that is not stored, gets 401. */
  lemma UnknownSessionUnauthorized(s: Store, sessionHeader: Option<string>)
    requires !Truthy(sessionHeader) || sessionHeader.value !in s.sessions
    ensures HandleGetUser(s, sessionHeader) == Fail(Unauthorized, UnauthorizedMessage)
  {
  }

  /** A rejected login changes nothing. */
  lemma RejectedLoginChangesNothing(s: Store, req: LoginRequest, freshUserId: Id, freshToken: Id, now: Timestamp)
    requires !AcceptsEmail(req)
    ensures HandleLogin(s, req, freshUserId, freshToken, now).store == s
    ensures HandleLogin(s, req, freshUserId, freshToken, now).value.Fail?
    ensures HandleLogin(s, req, freshUserId, freshToken, now).value.status == 400
  {
  }

  /** Logging in twice with emails that differ only in letter case reaches the same user,
      and the stored email keeps the casing it was first stored with. */
  lemma CaseInsensitiveLogin(s: Store, e1: string, e2: string, n1: Option<string>, n2: Option<string>,
                             id1: Id, id2: Id, t1: Id, t2: Id, now1: Timestamp, now2: Timestamp)
    requires Valid(s) && id1 !in s.users
    requires AcceptsEmail(LoginRequest(Some(e1), n1))
    requires JsText.EqualsIgnoringCase(e1, e2)
    ensures var first := HandleLogin(s, LoginRequest(Some(e1), n1), id1, t1, now1);
            var second := HandleLogin(first.store, LoginRequest(Some(e2), n2), id2, t2, now2);
            && first.value.Json? && second.value.Json?
            && second.value.body.user.id == first.value.body.user.id
            && second.value.body.user.email == first.value.body.user.email
            && (FindByEmail(s, e1).None? ==> second.value.body.user.email == e1)
  {
    var first := HandleLogin(s, LoginRequest(Some(e1), n1), id1, t1, now1);
    var created := GetOrCreateUserByEmail(s, e1, n1, id1, now1);
    GetOrCreateKeepsValid(s, e1, n1, id1, now1);
    CreateSessionKeepsValid(created.store, created.value.id, t1, now1);
    var s1 := first.store;
    var u := created.value;
    assert s1.users == created.store.users;
    EmailShapeIgnoresCase(e1, e2);
    assert |e2| == |e1| by {
      assert |JsText.ToLower(e2)| == |JsText.ToLower(e1)|;
    }
    assert JsText.EqualsIgnoringCase(u.email, e2);
    FindByEmailComplete(s1, e2);
    var k := FindByEmail(s1, e2).value;
    assert JsText.EqualsIgnoringCase(s1.users[k].email, u.email);
    assert k == u.id;
  }

  /** A logout with a token answers ok; the token stops resolving and every other token
      resolves as before. */
  lemma LogoutThenGetUser(s: Store, token: string, other: Option<string>)
    requires token != "" && other != Some(token)
    ensures var r := HandleLogout(s, Some(token), None);
            && r.value == Json(LogoutOk)
            && HandleGetUser(r.store, Some(token)) == Fail(Unauthorized, UnauthorizedMessage)
            && HandleGetUser(r.store, other) == HandleGetUser(s, other)
  {
    LogoutRevokesOnlyThatToken(s, token, other);
  }

  /** An empty header wins over a token in the body, so it is rejected like a missing one. */
  lemma EmptyHeaderShadowsBodyToken(s: Store, bodyToken: Option<string>)
    ensures HandleLogout(s, Some(""), bodyToken) == Step(s, Fail(BadRequest, MissingSessionMessage))
  {
  }

  /** Every handler of this file keeps the store valid. */
  lemma AuthHandlersKeepValid(s: Store, req: LoginRequest, freshUserId: Id, freshToken: Id, now: Timestamp,
                              sessionHeader: Option<string>, bodyToken: Option<string>)
    requires Valid(s) && freshUserId !in s.users
    ensures Valid(HandleLogin(s, req, freshUserId, freshToken, now).store)
    ensures Valid(HandleLogout(s, sessionHeader, bodyToken).store)
  {
    if AcceptsEmail(req) {
      var created := GetOrCreateUserByEmail(s, req.email.value, req.name, freshUserId, now);
      GetOrCreateKeepsValid(s, req.email.value, req.name, freshUserId, now);
      CreateSessionKeepsValid(created.store, created.value.id, freshToken, now);
    }
    LogoutKeepsValid(s, LogoutToken(sessionHeader, bodyToken));
  }
}

=== FILE: db.dfy ===
/** The record and session store of server/db.ts, without its JSON file: a state value
    holding users by id and sessions by token. Each operation takes the state and returns
    the new state with its result; UUIDs and timestamps are parameters. */
module Db {
  import opened Wrappers
  import opened Api
  import JsText

  /** A stored user: the public fields and the assessment history, oldest first. */
  datatype DbUser = DbUser(id: Id, email: string, name: Option<string>, createdAt: Timestamp,
                           assessments: seq<AssessmentRecord>)
  {
    /** The fields the server echoes back to the client. */
    function Public(): User {
      User(id, email, name, createdAt)
    }
  }

  datatype Session = Session(userId: Id, createdAt: Timestamp)

  /** Users by id, the ids in the order they were first inserted (the order in which
      `Object.values` lists the users: UUID keys are never array-index-like), and sessions
      by token. */
  datatype Store = Store(users: map<Id, DbUser>, order: seq<Id>, sessions: map<Id, Session>)

  /** The store `ensureDb` starts from. */
  const Empty: Store := Store(map[], [], map[])

  /** The state after an operation, with the value it returns. */
  datatype Step<+T> = Step(store: Store, value: T)

  /** JavaScript truthiness of an optional string: present and non-empty. */
  predicate Truthy(s: Option<string>) {
    s.Some? && s.value != ""
  }

  /** What every store built by these operations satisfies: users sit under their own id,
      every user id is listed in `order`, no two users have emails equal up to letter
      case, and every session names a stored user. */
  predicate Valid(s: Store) {
    && (forall id :: id in s.users ==> s.users[id].id == id)
    && (forall id :: id in s.users ==> id in s.order)
    && (forall a, b :: a in s.users && b in s.users && a != b
                       ==> !JsText.EqualsIgnoringCase(s.users[a].email, s.users[b].email))
    && (forall t :: t in s.sessions ==> s.sessions[t].userId in s.users)
  }

  lemma EmptyIsValid()
    ensures Valid(Empty)
  {
  }

  // ---------------------------------------------------------------------------------
  // Users

  /** No id of `ids` before position `k` names a user whose email matches. */
  predicate FirstMatchAt(s: Store, ids: seq<Id>, email: string, k: int)
    requires 0 <= k <= |ids|
  {
    forall j :: 0 <= j < k && ids[j] in s.users ==> !JsText.EqualsIgnoringCase(s.users[ids[j]].email, email)
  }

  /** The first id of `ids` naming a user whose email equals `email` up to letter case. */
  function FindIn(s: Store, ids: seq<Id>, email: string): (r: Option<Id>)
    ensures r.Some? ==> r.value in s.users && r.value in ids
                        && JsText.EqualsIgnoringCase(s.users[r.value].email, email)
    ensures r.None? ==> forall i :: 0 <= i < |ids| && ids[i] in s.users
                                    ==> !JsText.EqualsIgnoringCase(s.users[ids[i]].email, email)
    ensures r.Some? ==> exists k :: 0 <= k < |ids| && ids[k] == r.value && FirstMatchAt(s, ids, email, k)
  {
    if |ids| == 0 then None
    else if ids[0] in s.users && JsText.EqualsIgnoringCase(s.users[ids[0]].email, email) then Some(ids[0])
    else FindIn(s, ids[1..], email)
  }

  /** The lookup `getOrCreateUserByEmail` starts with: the first user, in insertion
      order, whose email matches up to letter case. */
  function FindByEmail(s: Store, email: string): (r: Option<Id>)
    ensures r.Some? ==> r.value in s.users && JsText.EqualsIgnoringCase(s.users[r.value].email, email)
    ensures r.Some? ==> exists k :: 0 <= k < |s.order| && s.order[k] == r.value && FirstMatchAt(s, s.order, email, k)
    ensures r.None? ==> forall i :: 0 <= i < |s.order| && s.order[i] in s.users
                                    ==> !JsText.EqualsIgnoringCase(s.users[s.order[i]].email, email)
  {
    FindIn(s, s.order, email)
  }

  /** In a valid store the lookup finds a user exactly when one has a matching email. */
  lemma FindByEmailComplete(s: Store, email: string)
    requires Valid(s)
    ensures FindByEmail(s, email).None? <==>
            forall id :: id in s.users ==> !JsText.EqualsIgnoringCase(s.users[id].email, email)
  {
    if FindByEmail(s, email).None? {
      forall id | id in s.users ensures !JsText.EqualsIgnoringCase(s.users[id].email, email) {
        var i :| 0 <= i < |s.order| && s.order[i] == id;
      }
    }
  }

  /** The name a found user keeps: the given one only when it is non-empty and none is
      stored (`name && !user.name`). */
  function NameAfterLogin(stored: Option<string>, given: Option<string>): Option<string> {
    if Truthy(given) && !Truthy(stored) then given else stored
  }

  /** `getOrCreateUserByEmail`: return the user whose email matches up to letter case,
      storing the given name if it had none; otherwise create one under `freshId`. */
  function GetOrCreateUserByEmail(s: Store, email: string, name: Option<string>, freshId: Id,
                                  now: Timestamp): (r: Step<DbUser>)
    ensures r.store.sessions == s.sessions
    ensures FindByEmail(s, email).Some? ==>
              var k := FindByEmail(s, email).value;
              var u := s.users[k];
              && r.value.id == u.id && r.value.email == u.email
              && r.value.createdAt == u.createdAt && r.value.assessments == u.assessments
              && r.value.name == NameAfterLogin(u.name, name)
              && r.store.users == s.users[k := r.value]
              && r.store.order == s.order
    ensures FindByEmail(s, email).None? ==>
              && r.value == DbUser(freshId, email, name, now, [])
              && r.store.users == s.users[freshId := r.value]
              && r.store.order == (if freshId in s.users then s.order else s.order + [freshId])
  {
    match FindByEmail(s, email)
    case Some(k) =>
      var u := s.users[k];
      var u' := u.(name := NameAfterLogin(u.name, name));
      Step(s.(users := s.users[k := u']), u')
    case None =>
      var u := DbUser(freshId, email, name, now, []);
      var order := if freshId in s.users then s.order else s.order + [freshId];
      Step(Store(s.users[freshId := u], order, s.sessions), u)
  }

  /** With a fresh id, `getOrCreateUserByEmail` keeps the store valid (in particular no two
      users come to share an email up to letter case), and the user it returns is stored
      under its own id. */
  lemma GetOrCreateKeepsValid(s: Store, email: string, name: Option<string>, freshId: Id, now: Timestamp)
    requires Valid(s) && freshId !in s.users
    ensures var r := GetOrCreateUserByEmail(s, email, name, freshId, now);
            && Valid(r.store)
            && r.value.id in r.store.users && r.store.users[r.value.id] == r.value
            && JsText.EqualsIgnoringCase(r.value.email, email)
  {
    var r := GetOrCreateUserByEmail(s, email, name, freshId, now);
    FindByEmailComplete(s, email);
    if FindByEmail(s, email).None? {
      forall a, b | a in r.store.users && b in r.store.users && a != b
        ensures !JsText.EqualsIgnoringCase(r.store.users[a].email, r.store.users[b].email)
      {
        if a != freshId && b != freshId {
          assert r.store.users[a] == s.users[a] && r.store.users[b] == s.users[b];
        }
      }
    }
  }

  /** A returning user keeps id, email, creation time and history; a missing name is
      filled in from a non-empty given one, and a stored name is never replaced. */
  lemma ReturningUserUnchanged(s: Store, email: string, name: Option<string>, freshId: Id, now: Timestamp)
    requires Valid(s)
    requires exists id :: id in s.users && JsText.EqualsIgnoringCase(s.users[id].email, email)
    ensures var r := GetOrCreateUserByEmail(s, email, name, freshId, now);
            var u := s.users[r.value.id];
            && r.value.id in s.users
            && JsText.EqualsIgnoringCase(u.email, email)
            && r.value.email == u.email && r.value.createdAt == u.createdAt
            && r.value.assessments == u.assessments
            && (Truthy(u.name) ==> r.value.name == u.name)
            && (!Truthy(u.name) && Truthy(name) ==> r.value.name == name)
            && r.store.users.Keys == s.users.Keys
  {
    FindByEmailComplete(s, email);
  }

  // ---------------------------------------------------------------------------------
  // Sessions

  /** `createSession`: store a session for `userId` under the fresh token and return it. */
  function CreateSession(s: Store, userId: Id, freshToken: Id, now: Timestamp): (r: Step<Id>)
    ensures r.value == freshToken
    ensures r.store.users == s.users && r.store.order == s.order
    ensures r.store.sessions.Keys == s.sessions.Keys + {freshToken}
    ensures r.store.sessions[freshToken].userId == userId
    ensures forall t :: t in s.sessions && t != freshToken ==> r.store.sessions[t] == s.sessions[t]
  {
    Step(s.(sessions := s.sessions[freshToken := Session(userId, now)]), freshToken)
  }

  /** `getUserBySession`: a missing or empty token, an unknown token, and a token whose
      user is gone all give `None`. */
  function GetUserBySession(s: Store, token: Option<string>): (r: Option<DbUser>)
    ensures r.Some? <==> Truthy(token) && token.value in s.sessions && s.sessions[token.value].userId in s.users
    ensures r.Some? ==> r.value == s.users[s.sessions[token.value].userId]
  {
    if !Truthy(token) then None
    else if token.value !in s.sessions then None
    else
      var userId := s.sessions[token.value].userId;
      if userId in s.users then Some(s.users[userId]) else None
  }

  /** In a valid store a token resolves exactly when it is non-empty and stored. */
  lemma SessionResolvesIffStored(s: Store, token: Option<string>)
    requires Valid(s)
    ensures GetUserBySession(s, token).Some? <==> Truthy(token) && token.value in s.sessions
  {
  }

  /** `logoutSession`: forget the token; a missing, empty or unknown token changes
      nothing. */
  function LogoutSession(s: Store, token: Option<string>): (r: Store)
    ensures r.users == s.users && r.order == s.order
    ensures !Truthy(token) || token.value !in s.sessions ==> r == s
    ensures Truthy(token) ==> token.value !in r.sessions
    ensures forall t :: t in s.sessions && !(Truthy(token) && t == token.value)
                        ==> t in r.sessions && r.sessions[t] == s.sessions[t]
    ensures forall t :: t in r.sessions ==> t in s.sessions
  {
    if !Truthy(token) then s
    else if token.value in s.sessions then s.(sessions := s.sessions - {token.value})
    else s
  }

  /** After a logout the token no longer resolves, and every other token resolves to the
      same user as before. */
  lemma LogoutRevokesOnlyThatToken(s: Store, token: string, other: Option<string>)
    requires token != ""
    requires other != Some(token)
    ensures GetUserBySession(LogoutSession(s, Some(token)), Some(token)).None?
    ensures GetUserBySession(LogoutSession(s, Some(token)), other) == GetUserBySession(s, other)
  {
  }

  // ---------------------------------------------------------------------------------
  // Assessment history

  /** `addAssessment`: append the record to the user's history, or fail with "User not
      found" (a thrown error) leaving the store as it was. */
  function AddAssessment(s: Store, userId: Id, record: AssessmentRecord): (r: Result<Store>)
    ensures r.Err? <==> userId !in s.users
    ensures r.Err? ==> r.message == "User not found"
    ensures r.Ok? ==>
              && r.value.users.Keys == s.users.Keys
              && r.value.users[userId] == s.users[userId].(assessments := s.users[userId].assessments + [record])
              && (forall id :: id in s.users && id != userId ==> r.value.users[id] == s.users[id])
              && r.value.order == s.order && r.value.sessions == s.sessions
  {
    if userId !in s.users then Err("User not found")
    else
      var u := s.users[userId];
      Ok(s.(users := s.users[userId := u.(assessments := u.assessments + [record])]))
  }

  /** `getLatestAssessment`: the last record of the user's history, if there is one. */
  function GetLatestAssessment(s: Store, userId: Id): (r: Option<AssessmentRecord>)
    ensures r.None? <==> userId !in s.users || |s.users[userId].assessments| == 0
    ensures r.Some? ==> var history := s.users[userId].assessments;
                        r.value == history[|history| - 1]
  {
    if userId !in s.users || |s.users[userId].assessments| == 0 then None
    else
      var history := s.users[userId].assessments;
      Some(history[|history| - 1])
  }

  /** Appending keeps the store valid. */
  lemma AddAssessmentKeepsValid(s: Store, userId: Id, record: AssessmentRecord)
    requires Valid(s) && userId in s.users
    ensures AddAssessment(s, userId, record).Ok? && Valid(AddAssessment(s, userId, record).value)
  {
  }

  /** The record just appended is the one read back as the latest; other users' latest
      records do not move. */
  lemma AddThenLatest(s: Store, userId: Id, record: AssessmentRecord, other: Id)
    requires userId in s.users && other != userId
    ensures var s' := AddAssessment(s, userId, record).value;
            && GetLatestAssessment(s', userId) == Some(record)
            && GetLatestAssessment(s', other) == GetLatestAssessment(s, other)
  {
  }

  /** Creating a session for a stored user keeps the store valid. */
  lemma CreateSessionKeepsValid(s: Store, userId: Id, freshToken: Id, now: Timestamp)
    requires Valid(s) && userId in s.users
    ensures Valid(CreateSession(s, userId, freshToken, now).store)
  {
  }

  lemma LogoutKeepsValid(s: Store, token: Option<string>)
    requires Valid(s)
    ensures Valid(LogoutSession(s, token))
  {
  }
}

=== FILE: jstext.dfy ===
/** The JavaScript built-ins the server leans on, restated over `string`: the `\s`
    character class, `String.prototype.toLowerCase` (ASCII letters only), `parseInt`
    with no radix argument, and `String(n)` for integers. */
module JsText {
  import opened Wrappers

  /** ECMAScript WhiteSpace and LineTerminator code points: the `\s` class of a regular
      expression, and what `parseInt` trims from the front of its argument. */
  predicate IsSpace(c: char) {
    || c == '\t' || c == '\n' || c == '\U{000B}' || c == '\U{000C}' || c == '\r' || c == ' '
    || c == '\U{00A0}' || c == '\U{1680}' || ('\U{2000}' <= c <= '\U{200A}')
    || c == '\U{2028}' || c == '\U{2029}' || c == '\U{202F}' || c == '\U{205F}'
    || c == '\U{3000}' || c == '\U{FEFF}'
  }

  function LowerChar(c: char): char {
    if 'A' <= c <= 'Z' then (c as int - 'A' as int + 'a' as int) as char else c
  }

  /** `toLowerCase`, restricted to the ASCII letters. */
  function ToLower(s: string): string {
    seq(|s|, i requires 0 <= i < |s| => LowerChar(s[i]))
  }

  /** Letter-case-insensitive equality, as `a.toLowerCase() === b.toLowerCase()`. */
  predicate EqualsIgnoringCase(a: string, b: string) {
    ToLower(a) == ToLower(b)
  }

  /** Lower-casing never turns a non-letter into another character, so it keeps `@`,
      `.` and white space where they were. */
  lemma LowerCharKeepsNonLetters(c: char)
    ensures LowerChar(c) == '@' <==> c == '@'
    ensures LowerChar(c) == '.' <==> c == '.'
    ensures IsSpace(LowerChar(c)) <==> IsSpace(c)
  {
  }

  /** Drops the leading white space. */
  function TrimStart(s: string): (r: string)
    ensures |r| <= |s| && r == s[|s| - |r|..]
    ensures |r| == 0 || !IsSpace(r[0])
    ensures forall i :: 0 <= i < |s| - |r| ==> IsSpace(s[i])
  {
    if |s| > 0 && IsSpace(s[0]) then TrimStart(s[1..]) else s
  }

  predicate IsDigitIn(c: char, radix: nat) {
    if radix == 16 then '0' <= c <= '9' || 'a' <= c <= 'f' || 'A' <= c <= 'F'
    else '0' <= c <= '9'
  }

  function DigitValue(c: char): nat {
    if '0' <= c <= '9' then c as int - '0' as int
    else if 'a' <= c <= 'f' then c as int - 'a' as int + 10
    else if 'A' <= c <= 'F' then c as int - 'A' as int + 10
    else 0
  }

  /** The length of the longest prefix of `s` made of digits of `radix`. */
  function DigitRun(s: string, radix: nat): (n: nat)
    ensures n <= |s|
    ensures forall i :: 0 <= i < n ==> IsDigitIn(s[i], radix)
    ensures n == |s| || !IsDigitIn(s[n], radix)
  {
    if |s| > 0 && IsDigitIn(s[0], radix) then 1 + DigitRun(s[1..], radix) else 0
  }

  /** The value of a digit string, most significant digit first. */
  function DigitsValue(ds: string, radix: nat): nat {
    if |ds| == 0 then 0 else DigitsValue(ds[..|ds| - 1], radix) * radix + DigitValue(ds[|ds| - 1])
  }

  /** `parseInt(s)` without a radix: skip white space, then read a signed number. */
  function ParseInt(s: string): (r: Option<int>)
    ensures r.Some? ==> HasDecimalDigit(s)
    ensures LeadsWithDecimal(TrimStart(s)) ==> r.Some?
    ensures r.Some? <==> StartsNumber(AfterSign(TrimStart(s)))
  {
    var t := TrimStart(s);
    var r := ParseSigned(t);
    if r.Some? then
      var i :| 0 <= i < |t| && '0' <= t[i] <= '9';
      assert s[|s| - |t| + i] == t[i];
      r
    else r
  }

  /** A `0x` or `0X` prefix, which switches `parseInt` to base 16. */
  predicate HexPrefixed(u: string) {
    |u| >= 2 && u[0] == '0' && (u[1] == 'x' || u[1] == 'X')
  }

  /** A decimal digit first, and not the start of a hex prefix: `parseInt` then reads a
      number for certain. */
  predicate LeadsWithDecimal(u: string) {
    |u| > 0 && '0' <= u[0] <= '9' && !HexPrefixed(u)
  }

  /** `u` starts with a decimal digit, and, when that digit and the next character form
      a `0x` prefix, a hex digit follows it: exactly the unsigned text `parseInt` reads a
      number from. */
  predicate StartsNumber(u: string) {
    |u| > 0 && '0' <= u[0] <= '9' && (HexPrefixed(u) ==> |u| > 2 && IsDigitIn(u[2], 16))
  }

  /** The text after one leading `-` or `+`, if there is one. */
  function AfterSign(t: string): string {
    if |t| > 0 && (t[0] == '-' || t[0] == '+') then t[1..] else t
  }

  /** Whether `s` holds a decimal digit anywhere. */
  predicate HasDecimalDigit(s: string) {
    exists i :: 0 <= i < |s| && '0' <= s[i] <= '9'
  }

  /** The part of `parseInt` after trimming: one optional sign, then an unsigned number. */
  function ParseSigned(t: string): (r: Option<int>)
    ensures r.Some? ==> HasDecimalDigit(t)
    ensures LeadsWithDecimal(t) ==> r.Some?
    ensures r.Some? <==> StartsNumber(AfterSign(t))
  {
    if |t| > 0 && (t[0] == '-' || t[0] == '+') then
      var u := ParseUnsigned(t[1..]);
      if u.Some? then
        var i :| 0 <= i < |t[1..]| && '0' <= t[1..][i] <= '9';
        assert t[i + 1] == t[1..][i];
        if t[0] == '-' then Some(-(u.value as int)) else Some(u.value as int)
      else None
    else ParseUnsigned(t)
  }

  /** Base 16 after a `0x`/`0X` prefix, base 10 otherwise. */
  function ParseUnsigned(u: string): (r: Option<nat>)
    ensures r.Some? ==> HasDecimalDigit(u)
    ensures LeadsWithDecimal(u) ==> r.Some?
    ensures HexPrefixed(u) ==> (r.Some? <==> |u| > 2 && IsDigitIn(u[2], 16))
    ensures r.Some? <==> StartsNumber(u)
  {
    if HexPrefixed(u) then ParseDigits(u[2..], 16)
    else ParseDigits(u, 10)
  }

  /** The value of the longest digit prefix; no digits at all gives `NaN`, here `None`. */
  function ParseDigits(body: string, radix: nat): (r: Option<nat>)
    ensures r.Some? <==> |body| > 0 && IsDigitIn(body[0], radix)
  {
    var n := DigitRun(body, radix);
    if n == 0 then None else Some(DigitsValue(body[..n], radix))
  }

  function DecimalDigit(d: nat): char
    requires d < 10
  {
    ('0' as int + d) as char
  }

  /** `String(n)` for a non-negative integer. */
  function DecimalString(n: nat): (r: string)
    ensures |r| > 0
    ensures forall i :: 0 <= i < |r| ==> '0' <= r[i] <= '9'
  {
    if n < 10 then [DecimalDigit(n)] else DecimalString(n / 10) + [DecimalDigit(n % 10)]
  }

  /** `String(n)` for any integer. */
  function IntString(n: int): string {
    if n < 0 then "-" + DecimalString(-n) else DecimalString(n)
  }

  /** Reading back the digits of `String(n)` gives `n`. */
  lemma {:induction false} DecimalStringValue(n: nat)
    ensures DigitsValue(DecimalString(n), 10) == n
  {
    var ds := DecimalString(n);
    if n >= 10 {
      DecimalStringValue(n / 10);
      assert ds[..|ds| - 1] == DecimalString(n / 10);
    }
  }

  /** Leading white space does not change where trimming stops. */
  lemma {:induction false} TrimStartSkipsPadding(pad: string, s: string)
    requires forall i :: 0 <= i < |pad| ==> IsSpace(pad[i])
    ensures TrimStart(pad + s) == TrimStart(s)
  {
    if |pad| > 0 {
      assert (pad + s)[0] == pad[0];
      assert (pad + s)[1..] == pad[1..] + s;
      TrimStartSkipsPadding(pad[1..], s);
    } else {
      assert pad + s == s;
    }
  }

  /** `parseInt` ignores leading white space. */
  lemma ParseIntIgnoresPadding(pad: string, s: string)
    requires forall i :: 0 <= i < |pad| ==> IsSpace(pad[i])
    ensures ParseInt(pad + s) == ParseInt(s)
  {
    TrimStartSkipsPadding(pad, s);
  }

  /** A decimal digit string reads back as its value: no `0x` prefix can appear in it. */
  lemma ParseUnsignedDecimal(ds: string)
    requires |ds| > 0
    requires forall i :: 0 <= i < |ds| ==> '0' <= ds[i] <= '9'
    ensures ParseUnsigned(ds) == Some(DigitsValue(ds, 10))
  {
    assert |ds| < 2 || '0' <= ds[1] <= '9';
    assert DigitRun(ds, 10) == |ds|;
    assert ds[..|ds|] == ds;
  }

  /** The sign of `String(n)` and its digits read back as `n`. */
  lemma ParseSignedIntString(n: int)
    ensures ParseSigned(IntString(n)) == Some(n)
  {
    var m: nat := if n < 0 then -n else n;
    var ds := DecimalString(m);
    DecimalStringValue(m);
    ParseUnsignedDecimal(ds);
    if n < 0 {
      var t := IntString(n);
      assert t[0] == '-' && t[1..] == ds;
      assert ParseUnsigned(t[1..]) == Some(m);
    } else {
      assert IntString(n) == ds;
      assert '0' <= ds[0] <= '9';
    }
  }

  /** `parseInt(String(n))` is `n`, with or without leading white space. */
  lemma ParseIntRoundTrip(pad: string, n: int)
    requires forall i :: 0 <= i < |pad| ==> IsSpace(pad[i])
    ensures ParseInt(pad + IntString(n)) == Some(n)
  {
    var t := IntString(n);
    TrimStartSkipsPadding(pad, t);
    assert TrimStart(t) == t by {
      assert t[0] == '-' || '0' <= t[0] <= '9';
    }
    ParseSignedIntString(n);
  }

  /** A run of decimal digits followed by a non-digit (or nothing) is read in full. */
  lemma {:induction false} DigitRunPrefix(ds: string, rest: string)
    requires forall i :: 0 <= i < |ds| ==> '0' <= ds[i] <= '9'
    requires |rest| == 0 || !('0' <= rest[0] <= '9')
    ensures DigitRun(ds + rest, 10) == |ds|
  {
    if |ds| > 0 {
      assert (ds + rest)[1..] == ds[1..] + rest;
      DigitRunPrefix(ds[1..], rest);
    } else {
      assert ds + rest == rest;
    }
  }

  /** Without a hex prefix, the leading digits are read and the text after them is
      ignored. */
  lemma ParseUnsignedPrefix(ds: string, rest: string)
    requires |ds| > 0 && forall i :: 0 <= i < |ds| ==> '0' <= ds[i] <= '9'
    requires |rest| == 0 || !('0' <= rest[0] <= '9')
    requires !HexPrefixed(ds + rest)
    ensures ParseUnsigned(ds + rest) == Some(DigitsValue(ds, 10))
  {
    DigitRunPrefix(ds, rest);
    assert (ds + rest)[..|ds|] == ds;
  }

  /** An optional sign in front of a number that starts with a digit negates it or
      leaves it as it is. */
  lemma ParseSignedSign(sign: string, u: string, v: nat)
    requires sign == "" || sign == "+" || sign == "-"
    requires |u| > 0 && '0' <= u[0] <= '9' && ParseUnsigned(u) == Some(v)
    ensures ParseSigned(sign + u) == Some(if sign == "-" then -(v as int) else v as int)
  {
    if sign == "" {
      assert sign + u == u;
    } else {
      assert (sign + u)[0] == sign[0];
      assert (sign + u)[1..] == u;
    }
  }

  /** An optional sign, the longest run of decimal digits `ds` (whose value is `v`), and
      text that is ignored. */
  lemma ParseSignedDigitPrefix(sign: string, ds: string, rest: string, v: nat)
    requires sign == "" || sign == "+" || sign == "-"
    requires |ds| > 0 && forall i :: 0 <= i < |ds| ==> '0' <= ds[i] <= '9'
    requires |rest| == 0 || !('0' <= rest[0] <= '9')
    requires !HexPrefixed(ds + rest)
    requires v == DigitsValue(ds, 10)
    ensures ParseSigned(sign + (ds + rest)) == Some(if sign == "-" then -(v as int) else v as int)
  {
    var u := ds + rest;
    ParseUnsignedPrefix(ds, rest);
    assert u[0] == ds[0];
    ParseSignedSign(sign, u, v);
  }

  /** `parseInt` after white space: an optional sign, then the longest run of decimal
      digits `ds`, whose value `v` it returns with that sign; whatever follows the digits
      is ignored. */
  lemma ParseIntDigitPrefix(pad: string, sign: string, ds: string, rest: string, v: nat)
    requires forall i :: 0 <= i < |pad| ==> IsSpace(pad[i])
    requires sign == "" || sign == "+" || sign == "-"
    requires |ds| > 0 && forall i :: 0 <= i < |ds| ==> '0' <= ds[i] <= '9'
    requires |rest| == 0 || !('0' <= rest[0] <= '9')
    requires !HexPrefixed(ds + rest)
    requires v == DigitsValue(ds, 10)
    ensures ParseInt(pad + (sign + (ds + rest))) == Some(if sign == "-" then -(v as int) else v as int)
  {
    var t := sign + (ds + rest);
    assert ParseSigned(t) == Some(if sign == "-" then -(v as int) else v as int) by {
      ParseSignedDigitPrefix(sign, ds, rest, v);
    }
    assert |t| > 0 && !IsSpace(t[0]) by {
      SignedStartsPlain(sign, ds + rest);
    }
    ParseIntAfterPadding(pad, t);
  }

  /** A sign or a digit is not white space. */
  lemma SignedStartsPlain(sign: string, u: string)
    requires sign == "" || sign == "+" || sign == "-"
    requires |u| > 0 && '0' <= u[0] <= '9'
    ensures |sign + u| > 0 && !IsSpace((sign + u)[0])
  {
    if sign != "" {
      assert (sign + u)[0] == sign[0];
    }
  }

  /** With white space in front of a string that does not start with white space,
      `parseInt` reads exactly that string. */
  lemma ParseIntAfterPadding(pad: string, t: string)
    requires forall i :: 0 <= i < |pad| ==> IsSpace(pad[i])
    requires |t| > 0 && !IsSpace(t[0])
    ensures ParseInt(pad + t) == ParseSigned(t)
  {
    TrimStartSkipsPadding(pad, t);
  }

  /** Worked value: the digit prefix wins. */
  lemma ParseIntPrefixExample()
    ensures ParseInt("12abc") == Some(12)
  {
    var s := "12abc";
    assert s[0] == '1' && s[1] == '2';
    assert TrimStart(s) == s;
    assert !HexPrefixed(s);
    assert ParseDigits(s, 10) == Some(12) by {
      PrefixDigitsValue();
    }
    assert ParseUnsigned(s) == Some(12);
  }

  lemma PrefixDigitsValue()
    ensures ParseDigits("12abc", 10) == Some(12)
  {
    assert DigitRun("12abc", 10) == 2 by {
      assert "12abc"[1..] == "2abc" && "2abc"[1..] == "abc";
    }
    assert "12abc"[..2] == "12";
    assert DigitsValue("12", 10) == 12 by {
      assert "12"[..1] == "1";
      assert "1"[..0] == "";
    }
  }

  /** Worked value: a string without digits is `NaN`. */
  lemma ParseIntNaNExample()
    ensures ParseInt("abc") == None
  {
    assert "abc"[0] == 'a';
    assert TrimStart("abc") == "abc";
    assert DigitRun("abc", 10) == 0;
    assert ParseUnsigned("abc") == None;
  }

  /** Worked value: a `0x` prefix switches to base 16. */
  lemma ParseIntHexExample()
    ensures ParseInt("0x1A") == Some(26)
  {
    var s := "0x1A";
    assert s[0] == '0' && s[1] == 'x';
    assert TrimStart(s) == s;
    assert HexPrefixed(s);
    assert s[2..] == "1A";
    assert ParseDigits("1A", 16) == Some(26) by {
      HexDigitsValue();
    }
    assert ParseUnsigned(s) == Some(26);
  }

  lemma HexDigitsValue()
    ensures ParseDigits("1A", 16) == Some(26)
  {
    assert DigitRun("1A", 16) == 2 by {
      assert "1A"[1..] == "A" && "A"[1..] == "";
    }
    assert "1A"[..2] == "1A";
    assert DigitsValue("1A", 16) == 26 by {
      assert "1A"[..1] == "1";
      assert "1"[..0] == "";
    }
  }
}

=== FILE: questions.dfy ===
/** The question bank and the adaptive choice of questions of server/db.ts: four base
    questions always, then the anxiety follow-ups and the mood follow-ups when the
    caller's latest stored summary reached 3.0 in that domain. */
module Questions {
  import opened Wrappers
  import opened Api
  import opened Scoring

  /** A catalogue row: the id, the prompt and the domain the question belongs to. */
  datatype Entry = Entry(id: string, text: string, domain: Domain)

  const ScaleLabels: seq<string> := ["Never", "Rarely", "Sometimes", "Often", "Always"]

  const BaseQuestions: seq<Entry> := [
    Entry("m1", "Over the past week, how often have you felt down or hopeless?", Mood),
    Entry("m2", "How often have you had trouble enjoying activities you usually like?", Mood),
    Entry("a1", "How often have you felt nervous, anxious, or on edge?", Anxiety),
    Entry("a2", "How often have you found it hard to relax?", Anxiety)
  ]

  const FollowUpAnxiety: seq<Entry> := [
    Entry("a3", "How often have you experienced racing thoughts?", Anxiety),
    Entry("a4", "How often do worries interfere with your studies?", Anxiety)
  ]

  const FollowUpMood: seq<Entry> := [
    Entry("m3", "How often have you felt tired or had little energy?", Mood),
    Entry("m4", "How often have you had changes in sleep?", Mood)
  ]

  /** A prior domain score at or above this many tenths brings in that domain's follow-ups. */
  const FollowUpThreshold: int := 30

  /** Every question is put as a 1-to-5 scale with the five labels. */
  function AsScale(e: Entry): Question {
    Question(e.id, e.text, Scale, 1, 5, ScaleLabels)
  }

  function AsScales(es: seq<Entry>): (qs: seq<Question>)
    ensures |qs| == |es|
    ensures forall i :: 0 <= i < |es| ==> qs[i] == AsScale(es[i])
  {
    seq(|es|, i requires 0 <= i < |es| => AsScale(es[i]))
  }

  function Ids(qs: seq<Question>): (ids: seq<string>)
    ensures |ids| == |qs|
    ensures forall i :: 0 <= i < |qs| ==> ids[i] == qs[i].id
  {
    seq(|qs|, i requires 0 <= i < |qs| => qs[i].id)
  }

  /** A question the client can render: a 1-to-5 scale with the labels Never..Always. */
  predicate IsFivePointScale(q: Question) {
    q.kind == Scale && q.min == 1 && q.max == 5 && q.labels == ScaleLabels
  }

  const BaseIds: seq<string> := ["m1", "m2", "a1", "a2"]

  /** `getQuestionsForUser`, given the summary of the caller's latest record (`None`
      for a caller without one). */
  function QuestionsFor(latest: Option<Summary>): (qs: seq<Question>)
    ensures latest.None? ==> Ids(qs) == BaseIds
    ensures |qs| >= 4 && Ids(qs)[..4] == BaseIds
    ensures |qs| == 4 || |qs| == 6 || |qs| == 8
    ensures forall i :: 0 <= i < |qs| ==> IsFivePointScale(qs[i])
  {
    var base := AsScales(BaseQuestions);
    assert Ids(base) == BaseIds;
    match latest
    case None => base
    case Some(s) =>
      var anxiety := if s.anxietyScore >= FollowUpThreshold then AsScales(FollowUpAnxiety) else [];
      var mood := if s.moodScore >= FollowUpThreshold then AsScales(FollowUpMood) else [];
      IdsAppend(base, anxiety);
      IdsAppend(base + anxiety, mood);
      base + anxiety + mood
  }

  lemma IdsAppend(a: seq<Question>, b: seq<Question>)
    ensures Ids(a + b) == Ids(a) + Ids(b)
  {
  }

  /** With a prior summary, the ids are the base four, then `a3, a4` when the anxiety
      score reached 3.0, then `m3, m4` when the mood score did. */
  lemma QuestionIdsLayout(s: Summary)
    ensures var anxiety := s.anxietyScore >= FollowUpThreshold;
            var mood := s.moodScore >= FollowUpThreshold;
            Ids(QuestionsFor(Some(s)))
              == BaseIds + (if anxiety then ["a3", "a4"] else []) + (if mood then ["m3", "m4"] else [])
  {
    var base := AsScales(BaseQuestions);
    var anxiety := if s.anxietyScore >= FollowUpThreshold then AsScales(FollowUpAnxiety) else [];
    var mood := if s.moodScore >= FollowUpThreshold then AsScales(FollowUpMood) else [];
    assert Ids(base) == BaseIds;
    assert Ids(anxiety) == if s.anxietyScore >= FollowUpThreshold then ["a3", "a4"] else [];
    assert Ids(mood) == if s.moodScore >= FollowUpThreshold then ["m3", "m4"] else [];
    IdsAppend(base, anxiety);
    IdsAppend(base + anxiety, mood);
  }

  /** Each follow-up pair is offered exactly when the prior score of its domain reached
      3.0, and the anxiety pair comes before the mood pair. */
  lemma FollowUpsWhenThresholdReached(latest: Option<Summary>)
    ensures "a3" in Ids(QuestionsFor(latest)) <==> latest.Some? && latest.value.anxietyScore >= FollowUpThreshold
    ensures "a4" in Ids(QuestionsFor(latest)) <==> latest.Some? && latest.value.anxietyScore >= FollowUpThreshold
    ensures "m3" in Ids(QuestionsFor(latest)) <==> latest.Some? && latest.value.moodScore >= FollowUpThreshold
    ensures "m4" in Ids(QuestionsFor(latest)) <==> latest.Some? && latest.value.moodScore >= FollowUpThreshold
    ensures "a3" in Ids(QuestionsFor(latest)) ==> Ids(QuestionsFor(latest))[4..6] == ["a3", "a4"]
    ensures "a3" !in Ids(QuestionsFor(latest)) && "m3" in Ids(QuestionsFor(latest))
            ==> Ids(QuestionsFor(latest))[4..6] == ["m3", "m4"]
    ensures "a3" in Ids(QuestionsFor(latest)) && "m3" in Ids(QuestionsFor(latest))
            ==> Ids(QuestionsFor(latest))[6..] == ["m3", "m4"]
  {
    var ids := Ids(QuestionsFor(latest));
    if latest.None? {
      assert ids == ["m1", "m2", "a1", "a2"];
    } else {
      var s := latest.value;
      QuestionIdsLayout(s);
      var anxiety := s.anxietyScore >= FollowUpThreshold;
      var mood := s.moodScore >= FollowUpThreshold;
      if anxiety && mood {
        assert ids == ["m1", "m2", "a1", "a2", "a3", "a4", "m3", "m4"];
      } else if anxiety {
        assert ids == ["m1", "m2", "a1", "a2", "a3", "a4"];
      } else if mood {
        assert ids == ["m1", "m2", "a1", "a2", "m3", "m4"];
      } else {
        assert ids == ["m1", "m2", "a1", "a2"];
      }
    }
  }

  /** The questions offered never repeat an id. */
  lemma QuestionIdsDistinct(latest: Option<Summary>)
    ensures var ids := Ids(QuestionsFor(latest));
            forall i, j :: 0 <= i < j < |ids| ==> ids[i] != ids[j]
  {
    if latest.Some? {
      QuestionIdsLayout(latest.value);
    }
  }

  /** Every catalogue question is scored, and in the domain the catalogue gives it, so
      each answer to an offered question counts toward the intended score. */
  lemma CatalogueAgreesWithScoring()
    ensures forall e :: e in BaseQuestions + FollowUpAnxiety + FollowUpMood ==> DomainOf(e.id) == Some(e.domain)
  {
  }

  /** Higher prior scores never take a question away. */
  lemma FollowUpsMonotone(s: Summary, s': Summary)
    requires s.moodScore <= s'.moodScore && s.anxietyScore <= s'.anxietyScore
    ensures forall id :: id in Ids(QuestionsFor(Some(s))) ==> id in Ids(QuestionsFor(Some(s')))
  {
    QuestionIdsLayout(s);
    QuestionIdsLayout(s');
  }

  /** Worked values: mood 3.5 with anxiety 1.0 adds only the mood pair; 3.5 in both adds
      the anxiety pair and then the mood pair. */
  lemma QuestionsForExamples()
    ensures Ids(QuestionsFor(Some(Summary(35, 10, Moderate)))) == ["m1", "m2", "a1", "a2", "m3", "m4"]
    ensures Ids(QuestionsFor(Some(Summary(35, 35, Moderate)))) == ["m1", "m2", "a1", "a2", "a3", "a4", "m3", "m4"]
  {
    QuestionIdsLayout(Summary(35, 10, Moderate));
    QuestionIdsLayout(Summary(35, 35, Moderate));
  }
}

=== FILE: scoring.dfy ===
/** The scoring engine of server/db.ts: answers are coerced to numbers, split into the
    mood and anxiety domains by a closed id table, averaged and rounded half up to one
    decimal, and a severity tier is derived from the two scores. Scores are integers in
    tenths, so `round1(avg(vs))` is exactly `(20 * sum + n) / (2 * n)`: `Math.round(x)`
    is the floor of `x + 1/2`, and Dafny's `/` is the floor for a positive divisor. */
module Scoring {
  import opened Wrappers
  import opened Api
  import JsText

  datatype Domain = Mood | Anxiety

  /** The closed table from question id to the domain it is scored in. */
  const DomainTable: map<string, Domain> :=
    map["m1" := Mood, "m2" := Mood, "m3" := Mood, "m4" := Mood,
        "a1" := Anxiety, "a2" := Anxiety, "a3" := Anxiety, "a4" := Anxiety]

  function DomainOf(questionId: string): Option<Domain> {
    if questionId in DomainTable then Some(DomainTable[questionId]) else None
  }

  /** Severity thresholds, in tenths; both are inclusive lower bounds. */
  const ModerateThreshold: int := 30
  const HighThreshold: int := 40

  /** The number an answer counts as: a number as it is, a string through `parseInt`,
      and `NaN` (a string with no digit after its white space and sign) as 0. It never
      fails. */
  function Coerce(v: AnswerValue): (r: int)
    ensures v.Num? ==> r == v.n
    ensures v.Str? && !JsText.HasDecimalDigit(v.s) ==> r == 0
    ensures v.Str? && JsText.ParseInt(v.s).None? ==> r == 0
    ensures v.Str? && JsText.ParseInt(v.s).Some? ==> r == JsText.ParseInt(v.s).value
    ensures v.Str? && JsText.LeadsWithDecimal(JsText.TrimStart(v.s)) ==> JsText.ParseInt(v.s) == Some(r)
  {
    match v
    case Num(n) => n
    case Str(s) => JsText.ParseInt(s).GetOr(0)
  }

  /** The coerced values of the answers scored in domain `d`, in answer order. */
  function Values(answers: seq<Answer>, d: Domain): (vs: seq<int>)
    ensures |vs| <= |answers|
  {
    if |answers| == 0 then []
    else
      var last := answers[|answers| - 1];
      var vs := Values(answers[..|answers| - 1], d);
      if DomainOf(last.questionId) == Some(d) then vs + [Coerce(last.value)] else vs
  }

  function Sum(vs: seq<int>): int {
    if |vs| == 0 then 0 else Sum(vs[..|vs| - 1]) + vs[|vs| - 1]
  }

  /** `t` tenths is the mean of `vs` rounded half up to one decimal place, that is
      `t - 1/2 <= 10 * mean < t + 1/2`. */
  predicate IsRoundedMean(vs: seq<int>, t: int) {
    && |vs| > 0
    && 2 * |vs| * t - |vs| <= 20 * Sum(vs)
    && 20 * Sum(vs) < 2 * |vs| * t + |vs|
  }

  /** `round1(avg(vs))`, in tenths. */
  function MeanTenths(vs: seq<int>): (t: int)
    requires |vs| > 0
    ensures IsRoundedMean(vs, t)
  {
    var n := |vs|;
    var a := 20 * Sum(vs) + n;
    var t := a / (2 * n);
    assert 2 * n * t <= a < 2 * n * t + 2 * n;
    t
  }

  /** A domain's score: the rounded mean, or 0 when no answer falls in the domain. */
  function Score(vs: seq<int>): int {
    if |vs| == 0 then 0 else MeanTenths(vs)
  }

  /** How far a single score reaches: 0 below 3, 1 from 3, 2 from 4. */
  function Tier(score: int): nat {
    if score >= HighThreshold then 2 else if score >= ModerateThreshold then 1 else 0
  }

  function Rank(s: Severity): nat {
    match s
    case Low => 0
    case Moderate => 1
    case High => 2
  }

  function Max(a: nat, b: nat): nat {
    if a >= b then a else b
  }

  /** The three-tier severity, with `high` decided before `moderate`. */
  function SeverityOf(mood: int, anxiety: int): (sev: Severity)
    ensures sev == High <==> mood >= HighThreshold || anxiety >= HighThreshold
    ensures sev == Moderate <==>
              mood < HighThreshold && anxiety < HighThreshold
              && (mood >= ModerateThreshold || anxiety >= ModerateThreshold)
    ensures sev == Low <==> mood < ModerateThreshold && anxiety < ModerateThreshold
    ensures Rank(sev) == Max(Tier(mood), Tier(anxiety))
  {
    if mood >= HighThreshold || anxiety >= HighThreshold then High
    else if mood >= ModerateThreshold || anxiety >= ModerateThreshold then Moderate
    else Low
  }

  /** `summarizeAnswers`. */
  function Summarize(answers: seq<Answer>): (s: Summary)
    ensures s.severity == SeverityOf(s.moodScore, s.anxietyScore)
    ensures |Values(answers, Mood)| == 0 ==> s.moodScore == 0
    ensures |Values(answers, Mood)| > 0 ==> IsRoundedMean(Values(answers, Mood), s.moodScore)
    ensures |Values(answers, Anxiety)| == 0 ==> s.anxietyScore == 0
    ensures |Values(answers, Anxiety)| > 0 ==> IsRoundedMean(Values(answers, Anxiety), s.anxietyScore)
  {
    var mood := Score(Values(answers, Mood));
    var anxiety := Score(Values(answers, Anxiety));
    Summary(mood, anxiety, SeverityOf(mood, anxiety))
  }

  /** A summary is consistent when its severity is the one its scores determine; every
      summary `Summarize` produces is. */
  predicate Consistent(s: Summary) {
    s.severity == SeverityOf(s.moodScore, s.anxietyScore)
  }

  // ---------------------------------------------------------------------------------
  // Rounding

  lemma MulMonotone(n: int, a: int, b: int)
    requires n >= 0 && a <= b
    ensures n * a <= n * b
  {
    assert n * b - n * a == n * (b - a);
  }

  /** The rounding condition pins the score down: at most one `t` satisfies it. */
  lemma RoundedMeanUnique(vs: seq<int>, t: int, u: int)
    requires IsRoundedMean(vs, t) && IsRoundedMean(vs, u)
    ensures t == u
  {
    var n := |vs|;
    if t < u {
      MulMonotone(2 * n, t + 1, u);
    } else if u < t {
      MulMonotone(2 * n, u + 1, t);
    }
  }

  /** Worked values: [3, 4] scores 3.5 exactly, and [3, 3, 4] scores 3.3. */
  lemma MeanTenthsExamples()
    ensures MeanTenths([3, 4]) == 35
    ensures MeanTenths([3, 3, 4]) == 33
  {
    assert [3, 4][..1] == [3];
    assert [3][..0] == [];
    assert Sum([3, 4]) == 7;
    assert [3, 3, 4][..2] == [3, 3];
    assert [3, 3][..1] == [3];
    assert Sum([3, 3, 4]) == 10;
  }

  lemma {:induction false} SumBounds(vs: seq<int>, lo: int, hi: int)
    requires forall i :: 0 <= i < |vs| ==> lo <= vs[i] <= hi
    ensures |vs| * lo <= Sum(vs) <= |vs| * hi
  {
    if |vs| > 0 {
      SumBounds(vs[..|vs| - 1], lo, hi);
    }
  }

  /** When every value lies in [1, 5], so does the rounded mean: 10 to 50 tenths. */
  lemma MeanTenthsBounds(vs: seq<int>)
    requires |vs| > 0
    requires forall i :: 0 <= i < |vs| ==> 1 <= vs[i] <= 5
    ensures 10 <= MeanTenths(vs) <= 50
  {
    var n := |vs|;
    var t := MeanTenths(vs);
    SumBounds(vs, 1, 5);
    if t > 50 {
      MulMonotone(2 * n, 51, t);
    }
    if t < 10 {
      MulMonotone(2 * n, t, 9);
    }
  }

  // ---------------------------------------------------------------------------------
  // Partition by domain

  lemma {:induction false} ValuesAppend(xs: seq<Answer>, ys: seq<Answer>, d: Domain)
    ensures Values(xs + ys, d) == Values(xs, d) + Values(ys, d)
  {
    if |ys| == 0 {
      assert xs + ys == xs;
    } else {
      ValuesAppend(xs, ys[..|ys| - 1], d);
      assert (xs + ys)[..|xs + ys| - 1] == xs + ys[..|ys| - 1];
    }
  }

  /** Every value counted in domain `d` comes from an answer whose id the table maps to `d`. */
  lemma {:induction false} ValuesComeFromDomain(answers: seq<Answer>, d: Domain, k: int)
    requires 0 <= k < |Values(answers, d)|
    ensures exists i :: 0 <= i < |answers| && DomainOf(answers[i].questionId) == Some(d)
                        && Values(answers, d)[k] == Coerce(answers[i].value)
  {
    var prefix := answers[..|answers| - 1];
    if k < |Values(prefix, d)| {
      ValuesComeFromDomain(prefix, d, k);
      var i :| 0 <= i < |prefix| && DomainOf(prefix[i].questionId) == Some(d)
                && Values(prefix, d)[k] == Coerce(prefix[i].value);
      assert answers[i] == prefix[i];
    } else {
      assert Values(answers, d)[k] == Coerce(answers[|answers| - 1].value);
    }
  }

  /** An answer whose id the table maps to `d` is counted in `d`, in its place, wherever it
      stands. */
  lemma MappedAnswerCounted(xs: seq<Answer>, a: Answer, ys: seq<Answer>, d: Domain)
    requires DomainOf(a.questionId) == Some(d)
    ensures Values(xs + [a] + ys, d) == Values(xs, d) + [Coerce(a.value)] + Values(ys, d)
  {
    ValuesAppend(xs + [a], ys, d);
    ValuesAppend(xs, [a], d);
    assert [a][..0] == [];
  }

  lemma {:induction false} NoMappedIdNoValues(answers: seq<Answer>, d: Domain)
    requires forall i :: 0 <= i < |answers| ==> DomainOf(answers[i].questionId) != Some(d)
    ensures Values(answers, d) == []
  {
    if |answers| > 0 {
      NoMappedIdNoValues(answers[..|answers| - 1], d);
    }
  }

  /** An answer whose id is not in the table changes neither score, wherever it stands. */
  lemma UnmappedAnswerIgnored(xs: seq<Answer>, a: Answer, ys: seq<Answer>)
    requires DomainOf(a.questionId).None?
    ensures Summarize(xs + [a] + ys) == Summarize(xs + ys)
  {
    forall d: Domain ensures Values(xs + [a] + ys, d) == Values(xs + ys, d) {
      ValuesAppend(xs + [a], ys, d);
      ValuesAppend(xs, [a], d);
      ValuesAppend(xs, ys, d);
      assert Values([a], d) == [] by {
        assert [a][..0] == [];
      }
    }
  }

  /** Answers with no id from the table give the all-zero, `low` summary. */
  lemma NoMappedAnswersScoreZero(answers: seq<Answer>)
    requires forall i :: 0 <= i < |answers| ==> DomainOf(answers[i].questionId).None?
    ensures Summarize(answers) == Summary(0, 0, Low)
  {
    NoMappedIdNoValues(answers, Mood);
    NoMappedIdNoValues(answers, Anxiety);
  }

  lemma {:induction false} SumAppend(a: seq<int>, b: seq<int>)
    ensures Sum(a + b) == Sum(a) + Sum(b)
  {
    if |b| == 0 {
      assert a + b == a;
    } else {
      SumAppend(a, b[..|b| - 1]);
      assert (a + b)[..|a + b| - 1] == a + b[..|b| - 1];
    }
  }

  /** The order in which two batches of answers arrive does not change the summary. */
  lemma SummaryIgnoresOrder(xs: seq<Answer>, ys: seq<Answer>)
    ensures Summarize(xs + ys) == Summarize(ys + xs)
  {
    forall d: Domain ensures Score(Values(xs + ys, d)) == Score(Values(ys + xs, d)) {
      ValuesAppend(xs, ys, d);
      ValuesAppend(ys, xs, d);
      SumAppend(Values(xs, d), Values(ys, d));
      SumAppend(Values(ys, d), Values(xs, d));
    }
  }

  /** When every answer scored in a domain has a value in [1, 5], the domain's score is 0
      (no such answer) or lies between 1.0 and 5.0. */
  lemma SummaryBounds(answers: seq<Answer>)
    requires forall i :: 0 <= i < |answers| && DomainOf(answers[i].questionId).Some?
                         ==> 1 <= Coerce(answers[i].value) <= 5
    ensures var s := Summarize(answers);
            && (s.moodScore == 0 || 10 <= s.moodScore <= 50)
            && (s.anxietyScore == 0 || 10 <= s.anxietyScore <= 50)
  {
    forall d: Domain | |Values(answers, d)| > 0 ensures 10 <= MeanTenths(Values(answers, d)) <= 50 {
      var vs := Values(answers, d);
      forall k | 0 <= k < |vs| ensures 1 <= vs[k] <= 5 {
        ValuesComeFromDomain(answers, d, k);
      }
      MeanTenthsBounds(vs);
    }
  }

  /** A number sent as its decimal string, even with leading white space, counts the same
      as the number itself. */
  lemma StringAnswerCountsAsNumber(pad: string, n: int)
    requires forall i :: 0 <= i < |pad| ==> JsText.IsSpace(pad[i])
    ensures Coerce(Str(pad + JsText.IntString(n))) == Coerce(Num(n))
  {
    JsText.ParseIntRoundTrip(pad, n);
  }

  /** A string with no digit right after its white space and sign (`"abc5"`, `"-x1"`,
      `"+"`, `"0x"`) is `NaN`, and counts as 0. */
  lemma NaNStringCountsAsZero(s: string)
    requires !JsText.StartsNumber(JsText.AfterSign(JsText.TrimStart(s)))
    ensures Coerce(Str(s)) == 0
  {
  }

  /** A string without any decimal digit counts as 0. */
  lemma DigitlessStringCountsAsZero(s: string)
    requires forall i :: 0 <= i < |s| ==> !('0' <= s[i] <= '9')
    ensures Coerce(Str(s)) == 0
  {
  }

  // ---------------------------------------------------------------------------------
  // Severity

  /** Raising either score never lowers the severity. */
  lemma SeverityMonotone(mood: int, anxiety: int, mood': int, anxiety': int)
    requires mood <= mood' && anxiety <= anxiety'
    ensures Rank(SeverityOf(mood, anxiety)) <= Rank(SeverityOf(mood', anxiety'))
  {
  }

  /** The boundary cases: 4.0 is `high`, 3.0 is `moderate`, 2.9 is `low`. */
  lemma SeverityBoundaries()
    ensures SeverityOf(40, 0) == High
    ensures SeverityOf(30, 0) == Moderate
    ensures SeverityOf(29, 0) == Low
    ensures SeverityOf(0, 40) == High
  {
  }

  /** Worked value: mood answers 3 and 4 give mood 3.5, anxiety 0, `moderate`. */
  lemma SummarizeExample()
    ensures Summarize([Answer("m1", Num(3)), Answer("m2", Num(4))]) == Summary(35, 0, Moderate)
  {
    var answers := [Answer("m1", Num(3)), Answer("m2", Num(4))];
    assert answers[..1] == [Answer("m1", Num(3))];
    assert answers[..1][..0] == [];
    assert Values(answers, Mood) == [3, 4];
    assert Values(answers, Anxiety) == [];
    MeanTenthsExamples();
  }
}

=== FILE: wrappers.dfy ===
/** Optional values and fallible results, the model's stand-ins for `undefined`/`null`
    and for thrown errors. */
module Wrappers {

  /** `None` plays JavaScript's `undefined`/`null`; `Some(v)` a present value. */
  datatype Option<+T> = None | Some(value: T) {

    /** The value, or `default` when absent. */
    function GetOr(default: T): T {
      match this
      case Some(v) => v
      case None => default
    }
  }

  /** The outcome of an operation that may throw: `Err` carries the error message. */
  datatype Result<+T> = Ok(value: T) | Err(message: string)
}
